=== FILE: README.md ===
# classtable — a Dafny model of the timetable plugin's core

The plugin imports a WakeUp-style timetable export into a sparse weekly
schedule (week → day → period node → class occurrences). It answers "what is
on today", and shows a group board of who is in class now or has a class
coming up. It also keeps a small in-memory cache with expiry and
least-read eviction. This project models those pure parts as immutable
datatypes and total functions, and proves what each one computes.

Layout, one module per file:

- `common.dfy` (`Common`): `Option` (NaN / `undefined` is `None`) and `Result`.
- `text.dfy` (`Text`): decimal digits. `JsNumber` is `Number()` on the decimal
  forms the data uses. `Split`/`Join` on one separator character.
- `schedule.dfy` (`Schedule`): the `Occurrence` record, the nested
  `WeekMap`, and `FlattenDay`, the node-ordered view of one day.
- `calendar.dfy` (`Calendar`): day delta, the current week, and the Sunday → 7
  weekday mapping. `calculateCurrentWeek` is written twice in the source, in
  index.js:306-309 and in utils/renderNextClass.js:194-197. The two copies are
  identical, so it is modelled once here.
- `time_utils.dfy` (`TimeUtils`): `HH:MM` parsing, minute intervals, the
  half-open "class is running" test, and the forward merge of back-to-back
  periods of one course.
- `normalizer.dfy` (`Normalizer`): `generateCourseScheduleFromData` as a
  left fold over the schedule entries.
- `normalizer_facts.dfy` (`NormalizerFacts`): an independent reference for
  the import and the theorem that the fold meets it.
- `classtable.dfy` (`Classtable`): `getTodaySchedule`, plus the list update
  of `addUserToGroupList`.
- `next_class.dfy` (`NextClass`): `findNextClass`, the display row, name
  truncation, the stored-document fallback, and the group board built from
  the users whose schedule file exists.
- `ordered_map.dfy` (`OrderedMap`): a JavaScript `Map` with string keys,
  in insertion order.
- `memory_cache.dfy` (`MemoryCache`): the `MemoryCache` class, its two shared
  instances, and the cache-key builders.

Behaviour of the code that the model keeps as written:

- The import does not filter odd/even weeks by the entry's `type`.
- The import does not copy `room` or `type` into the stored occurrences.
- The current week is not clamped to at least 1.
- `findNextClass` does not merge consecutive periods, and nothing in the
  query path calls `findConsecutiveClasses`.
- The import stores the bare week-keyed map with no `startDate`. The board
  therefore places such a schedule by the default term start, 2025-09-01.
- An entry with `startWeek < 1` that passes the `maxWeek` and day checks
  reaches a week the import never created. JavaScript then throws a
  TypeError and the whole import fails. The model returns
  `Failure(WeekUndefined(startWeek))` for the first such entry.
- The running-class test inside `findNextClass` is written inline
  (utils/renderNextClass.js:233-237). It is the same expression as
  `isInClassTime`, so the model uses `TimeUtils.IsInClassTime` for it.

## Model

| member | source | states |
|---|---|---|
| Calendar.DayDelta | index.js:307 | The whole days elapsed, rounded down, also for negative deltas. |
| Calendar.CalculateCurrentWeek | index.js:306-309 | Week `w` is the one whose seven days `[7(w-1), 7w)` contain the day delta. There is no lower clamp. |
| Calendar.WeekIsUnique | index.js:306-309 | The day delta determines the week uniquely. |
| Calendar.WeekAdvances | index.js:306-309 | Seven more days give exactly one more week, and the week never decreases as time passes. |
| Calendar.FirstWeeks | index.js:306-309 | Days 0-6 are week 1 and day 7 is week 2. A negative delta gives week 0 or below. |
| Calendar.WeekOfMillisBounds | index.js:306-309 | Measured in milliseconds, week `w` covers `[7(w-1), 7w)` days after the term start. |
| Calendar.CurrentDay | index.js:315 | `getDay()` 0..6 maps into 1..7 and agrees with it modulo 7, so Sunday becomes 7. |
| Classtable.TodayListing | index.js:319-334 | There is a listing exactly when the week and the day are present. It is in ascending node order, and each node holds exactly that period's classes. |
| Classtable.TodayText | index.js:317-339 | The reply is the "no classes" line exactly when the week or the day is missing. Otherwise it is the header followed by one block per class, in listing order. |
| Classtable.GetTodaySchedule | index.js:312-340 | Today's reply says "no classes" exactly when the computed week or weekday is missing from the schedule. |
| Classtable.BlocksAppend | index.js:326-333 | Printing a concatenated listing prints each part in turn. |
| Classtable.OneClassDay | index.js:321-333 | A day with one class prints the header and exactly that class's block. |
| Classtable.EmptyDayPrintsHeader | index.js:319-321 | A day that is present but has no periods still prints the header. |
| Classtable.AddUserToGroupList | index.js:152-155 | The user is in the result and the old list is its prefix. Elements are exactly the old ones plus the user, and the length grows only when the user was absent. |
| Classtable.AddUserKeepsListClean | index.js:152-155 | A duplicate-free list stays duplicate-free, and adding the same user again changes nothing. |
| Text.JsNumber | utils/timeUtils.js:11 | Conversion succeeds exactly on digit strings, the empty string included, which gives 0. |
| Text.Split | utils/timeUtils.js:11 | `split(':')` gives at least one field, and no field contains the separator. |
| Text.JoinSplit | utils/timeUtils.js:11 | Joining the fields of a split gives back the original text. |
| Text.SplitJoin | utils/timeUtils.js:11 | Splitting a join of separator-free fields gives back the fields. |
| Schedule.SortedKeys | index.js:324 | The period keys come out strictly increasing, with the same elements and the same count. |
| Schedule.FlattenDay | utils/renderNextClass.js:214-229 | A day's classes are node-ordered and every node is a key of the day. Each node holds exactly that period's list, in its order. |
| TimeUtils.ParseTimeString | utils/timeUtils.js:10-13 | Text without ':' has no minute, so the minute is `undefined`. |
| TimeUtils.ParseFormatRoundTrip | utils/timeUtils.js:10-13 | Parsing a zero-padded `HH:MM` gives back its hour and minute. |
| TimeUtils.UnknownTimeIsNaN | utils/timeUtils.js:10-13 | The placeholder "未知" parses to NaN in both parts. |
| TimeUtils.TimeToMinutes | utils/timeUtils.js:96-99 | The total is NaN exactly when the hour or the minute is NaN. With a proper minute, dividing the total by 60 gives back the hour, and the remainder gives back the minute. |
| TimeUtils.GetCurrentTimeMinutes | utils/timeUtils.js:107-109 | For a minute in 0..59, the total determines the hour and the minute: its quotient by 60 and its remainder. |
| TimeUtils.TimeToMinutesOfFormat | utils/timeUtils.js:96-109 | A formatted time is worth as many minutes as the current time with the same hour and minute. |
| TimeUtils.CalculateTimeInterval | utils/timeUtils.js:21-29 | The interval is defined exactly when both times parse, and start plus interval equals end. |
| TimeUtils.IntervalAntisymmetric | utils/timeUtils.js:21-29 | Swapping the two times negates the interval. |
| TimeUtils.IntervalSelf | utils/timeUtils.js:21-29 | The interval from a parseable time to itself is 0. |
| TimeUtils.LexicographicIsNumeric | utils/timeUtils.js:43-44 | With minutes in 0..59, comparing (hour, minute) pairs is comparing minute totals. |
| TimeUtils.IsInClassTimeMinutes | utils/timeUtils.js:39-47 | With proper minutes, the test is `start <= h*60+m < end` in minutes. |
| TimeUtils.IsInClassTime | utils/timeUtils.js:39-47 | A class whose start or end hour is NaN is never running. |
| TimeUtils.IsInClassTimeHalfOpen | utils/timeUtils.js:39-47 | A class is running at exactly its start. It is not running at exactly its end, nor in the minute before its start. For a start on the hour that minute is `(h-1):59`. |
| TimeUtils.BlockEndUnique | utils/timeUtils.js:62-82 | At most one position ends the merged block, so the merge result is determined. |
| TimeUtils.FindConsecutiveClasses | utils/timeUtils.js:56-89 | An omitted `maxInterval` means 30 minutes. Every class up to the returned one has the start class's name and a gap of at most `maxInterval`, overlaps included. The next class, if any, breaks one of the two. The result holds that class, its end time, and the start class's start time. |
| Normalizer.LastIndex | index.js:209-218 | Finds the last record with the key, or reports that no record has it. |
| Normalizer.IndexBy | index.js:209-218 | The dictionary has a key exactly when some record has it, and maps it to the last such record. |
| Normalizer.ExpandClassTimes | index.js:233-242 | An entry expands to `max(step, 0)` periods with nodes `startNode`, `startNode+1`, and so on. |
| Normalizer.Entries | index.js:224-256 | One intermediate course entry per schedule entry. |
| Normalizer.EffectiveMaxWeek | index.js:221 | A non-zero setting is used unchanged, and an absent or 0 setting becomes 18: the limit is never 0. It is 18 exactly when the setting is absent, 0 or 18. |
| Normalizer.InitialWeeks | index.js:259-263 | Weeks 1..maxWeek are created, each with an empty day map. |
| Normalizer.GenerateCourseSchedule | index.js:204-303 | A successful import keeps no week with an empty day map, and an export without schedule entries imports to the empty schedule. The full statement against the reference is `NormalizerFacts.GenerateSpec`. |
| NormalizerFacts.GenerateSpec | index.js:204-303 | The import fails exactly when some entry reaches a week below 1, and the error names the first such entry's start week. Otherwise every cell holds the reference contributions of all entries in entry order. A week is kept exactly when some entry covers it, and a day exactly when some entry covers it on that day. |
| NormalizerFacts.AddEntriesSpec | index.js:265-294 | The fold over entries fails exactly on the first crashing entry. Otherwise it appends every entry's occurrences to every cell and keeps the week keys. |
| NormalizerFacts.AddWeeksSpec | index.js:266-293 | One entry's week loop fails exactly when it reaches a missing week. Otherwise it appends that entry's occurrences for every admitted week. |
| NormalizerFacts.AddWeekStep | index.js:269-292 | Filing one admitted week appends the entry's periods under that week and day only. |
| NormalizerFacts.AddTimesCell | index.js:276-291 | Filing the expanded periods appends, per node, exactly the occurrences for that node. |
| NormalizerFacts.OccsForConsecutive | index.js:234-242 | Over consecutive nodes, each node in the range gets exactly one occurrence and others get none. |
| NormalizerFacts.CourseNameMatches | index.js:228-230 | The looked-up course name equals the reference: the last catalogue row's name, or "未知课程" when it is missing or empty. |
| NormalizerFacts.SlotMatches | index.js:236 | The looked-up period times equal the reference: the last timetable row's times, or "未知". |
| NormalizerFacts.EntryOccsMatch | index.js:226-256 | What one intermediate entry files equals what the reference says its raw entry contributes. |
| NormalizerFacts.AllOccsMatches | index.js:265-294 | Over the whole list, the fold's cells equal the reference contributions. |
| NormalizerFacts.EntriesCrashMatch | index.js:266-272 | A crash in the intermediate entries is a crash in the raw entries, with the same first one. |
| NormalizerFacts.EntriesHitsMatch | index.js:269-274 | An intermediate entry files under a day exactly when its raw entry covers that week and day. |
| NormalizerFacts.CoveredWeekExists | index.js:261-267 | A covered week lies in 1..maxWeek. |
| NormalizerFacts.InContribution | index.js:282-291 | Every imported occurrence comes from some entry that covers its week and day and expands to its node. |
| NormalizerFacts.ImportedShape | index.js:295-300 | Every kept week lies in 1..maxWeek and has a non-empty day map, with day keys of at most 7. |
| NormalizerFacts.OccurrenceWeekFields | index.js:282-291 | An occurrence under week `w` has `week == w` and `startWeek <= w <= endWeek`, with `w <= maxWeek` and day at most 7. |
| NormalizerFacts.StepExpansion | index.js:234-242 | For a single entry with `step = k`, an admitted week's day has exactly the nodes `startNode..startNode+k-1`. |
| NormalizerFacts.MissingLookupsArePlaceholders | index.js:228-236 | A missing course and a missing period give "未知课程" and "未知", and the import still succeeds. |
| NormalizerFacts.DefaultMaxWeekApplies | index.js:221 | An absent or zero `maxWeek` means 18, so no kept week exceeds 18. |
| NormalizerFacts.EndWeekClampedToMaxWeek | index.js:266-267 | An entry for weeks 1-20 under the default limit fills week 18 and never weeks 19 or 20. |
| NormalizerFacts.AddWeeksIgnoresLateDay | index.js:270 | An entry whose day is after 7 files nothing in any week. |
| NormalizerFacts.AddEntriesAppend | index.js:265 | Folding a concatenation is folding the first part, then the second. |
| NormalizerFacts.AddEntriesSkipsLateDay | index.js:270 | Removing an entry whose day is after 7 does not change the fold's result. |
| NormalizerFacts.EntriesInsert | index.js:226-256 | Inserting a raw entry inserts its intermediate entry at the same position. |
| NormalizerFacts.LateDayContributesNothing | index.js:270 | Inserting an entry whose day is after 7 anywhere in the export leaves the import's result unchanged. |
| NextClass.FirstWhere | utils/renderNextClass.js:232-256 | Returns the first element satisfying the test, and none only when no element does. |
| NextClass.QueryDay | utils/renderNextClass.js:224-259 | Returns nothing exactly when no class is running or yet to start. Otherwise it reports the first running class, or, when none runs, the first class yet to start. |
| NextClass.FindNextClass | utils/renderNextClass.js:208-260 | A missing week or day gives `noneToday`. Otherwise it is the result of the day query on the node-ordered classes. |
| NextClass.OngoingNotUpcoming | utils/renderNextClass.js:235-249 | A class is never both running and yet to start. |
| NextClass.FoundIsScheduled | utils/renderNextClass.js:238-254 | The reported class is an entry of the schedule cell at its node, with only `week` set to the current week. |
| NextClass.FoundHasLowestNode | utils/renderNextClass.js:229-256 | The reported class has the lowest node among all classes in the same state. |
| NextClass.OngoingFirst | utils/renderNextClass.js:231-256 | If any class is running, the result is "ongoing". |
| NextClass.FoundHasStartHour | utils/renderNextClass.js:233-249 | A reported class has a numeric start hour, so a "未知" placeholder class is never shown. |
| NextClass.RunningFromStart | utils/renderNextClass.js:235-243 | A lone class is reported as running at its first minute. |
| NextClass.SingleQuery | utils/renderNextClass.js:224-259 | On a day with one class, the query reports it as running when it runs, as upcoming when it is yet to start, and nothing otherwise. |
| NextClass.UpcomingJustBefore | utils/renderNextClass.js:247-256 | A lone class is reported as upcoming in the minute before its start. For a start on the hour that minute is `(h-1):59`. |
| NextClass.OverAtEnd | utils/renderNextClass.js:235-259 | At a lone class's end minute the day is over (`noneToday`). |
| NextClass.Truncate | utils/renderNextClass.js:79 | A short name is unchanged. A long one is its first `n` characters followed by "···". |
| NextClass.TruncateStable | utils/renderNextClass.js:96-99 | Truncation keeps the visible prefix and a bounded length, as the source does. Truncating again changes nothing; this follows from the definition rather than being something the source states. |
| NextClass.RowFor | utils/renderNextClass.js:77-104 | The row has a class exactly when a class was found. The badge is 空闲, 上课中 or 将开始 exactly for `noneToday`, ongoing or upcoming. The user name is truncated at 14 and the course name at 9, and the times are the class's own. |
| NextClass.ScheduleOf | utils/renderNextClass.js:69 | A stored document's `schedule` field is used when present; otherwise the document is itself the week map. |
| NextClass.WrappedAndBareAgree | utils/renderNextClass.js:68-75 | A document holding its weeks under `schedule` and a bare week map with the same start date give the same row, whatever else the wrapped document holds. |
| NextClass.StartDateOf | utils/renderNextClass.js:72 | A present, non-empty start date is used. Otherwise the date is "2025-09-01". |
| NextClass.ImportedDocument | utils/renderNextClass.js:69-72 | A bare imported schedule is read as its own weekly map, with the default start date. |
| NextClass.UserRow | utils/renderNextClass.js:55-104 | A member without a file gets the "not imported" row. Otherwise the row has a class exactly when the query on the member's schedule finds one. |
| NextClass.ImportedUsesDefaultStart | utils/renderNextClass.js:69-75 | A freshly imported schedule is queried at the week counted from 2025-09-01. |
| NextClass.RenderList | utils/renderNextClass.js:19-31 | `members` are the users left after the schedule-file filter. With none left, the result is the single "no data" row, whose user name is "暂无数据". Otherwise there is one row per member, in order. |
| NextClass.NoDataOnlyForEmptyGroup | utils/renderNextClass.js:19-31 | The "no data" row appears exactly when no member is left after the filter. |
| NextClass.UsersWithSchedule | utils/renderNextClass.js:140-166 | Keeps exactly the listed users whose schedule file exists, and is empty when the group has no list file. When every listed user has a file, the list comes back unchanged. |
| NextClass.Filter | utils/renderNextClass.js:154-160 | The kept ids are the listed ids with a file, never more than listed. A one-id list is kept exactly when its id has a file. |
| NextClass.FilterAppend | utils/renderNextClass.js:154-160 | Filtering a concatenation filters each part and keeps the parts in order. With the one-id case this fixes the order and the multiplicity of the pushed ids. |
| NextClass.GroupBoard | utils/renderNextClass.js:13-31 | The board is the "no data" row exactly when the filter leaves no user. Otherwise it has one row per remaining user, in list order, each that user's row. |
| NextClass.NoDataIffNoScheduleFile | utils/renderNextClass.js:16-65 | If every user with a file can be read, "no data" appears exactly when no listed user has a file, and no row says "not imported". A "not imported" row therefore needs the file to vanish between the filter and the read. |
| OrderedMap.Get | utils/cacheUtils.js:18 | A key is found exactly when it is present, with a value stored under it. |
| OrderedMap.Set | utils/cacheUtils.js:44-47 | A present key keeps its position and a new key goes last. |
| OrderedMap.SetGet | utils/cacheUtils.js:44-47 | After setting, the key reads back the new value and every other key reads as before. |
| OrderedMap.Delete | utils/cacheUtils.js:55-56 | The key is gone and every other key reads as before. Deleting an absent key changes nothing. |
| OrderedMap.DeleteAppend | utils/cacheUtils.js:55-56 | Deleting from a concatenation deletes from each part, keeping the parts in order. |
| OrderedMap.DeleteAt | utils/cacheUtils.js:55-56 | In a duplicate-free map, deleting the key at position `i` leaves the entries before and after it in their order. |
| OrderedMap.SetKeepsDistinct | utils/cacheUtils.js:44-47 | Setting never duplicates a key. |
| OrderedMap.DeleteKeepsDistinct | utils/cacheUtils.js:55-56 | Deleting keeps keys distinct and removes exactly one entry when the key was present. |
| MemoryCache.New | utils/cacheUtils.js:5-10 | A new cache is empty and consistent. An omitted limit is 100 entries and an omitted lifetime is five minutes. |
| MemoryCache.Get | utils/cacheUtils.js:17-30 | A missing key changes nothing. An entry past its expiry (`now > expireAt`) is deleted and not returned. A live entry, including one at exactly its expiry, is returned and its read count goes up by exactly 1. The read-count keys keep their order, and a first read appends the key last. |
| MemoryCache.Set | utils/cacheUtils.js:38-48 | The key reads back `{value, now + ttl}`, with the default lifetime when `ttl` is omitted. Rewriting a key, or writing below the limit, evicts nothing and leaves other entries and counts alone. A new key at a full cache leaves exactly the counts and the other entries that `evictLRU` leaves. |
| MemoryCache.FullCacheEvictsLeastRead | utils/cacheUtils.js:38-76 | A new key at a full cache removes the first least-read entry when that key is not empty. Every other entry stays, and the new key is stored. |
| MemoryCache.Delete | utils/cacheUtils.js:54-57 | The key leaves both maps, and every other key reads as before with the same item and read count. Deleting an absent key changes neither map. Otherwise the entries before and after the deleted key keep their order in both maps, which fixes the order the next eviction scans. |
| OrderedMap.DeleteClosesGap | utils/cacheUtils.js:55-56 | In a duplicate-free map, deleting a key closes the gap at the key's position, whichever position that is. |
| MemoryCache.ScanLeast | utils/cacheUtils.js:63-71 | The scan ends on the first entry with the smallest count, and finds nothing only when no key was read. |
| MemoryCache.FirstMinimumUnique | utils/cacheUtils.js:66-71 | There is only one first minimum. |
| MemoryCache.EvictLRU | utils/cacheUtils.js:62-76 | Nothing is removed when no key was read. Otherwise exactly the first least-read key is deleted, unless it is the empty string, which the `if (minKey)` guard skips. |
| MemoryCache.Clear | utils/cacheUtils.js:81-84 | Both maps become empty, so the size is 0. |
| MemoryCache.SetThenGet | utils/cacheUtils.js:17-48 | A value written with lifetime `ttl` reads back until and including `now + ttl`. After that it is gone and deleted. |
| MemoryCache.UnreadEntriesSurviveEviction | utils/cacheUtils.js:62-76 | An entry that was never read is never evicted. |
| MemoryCache.FullCacheKeepsSize | utils/cacheUtils.js:38-48 | At a full cache whose least-read key is a real key, writing a new key evicts one entry and adds one. |
| MemoryCache.SizeCanExceedMax | utils/cacheUtils.js:38-48 | A cache limited to one entry holds two after two writes with no reads. |
| MemoryCache.GroupQueryCache | utils/cacheUtils.js:98 | The group query cache holds 50 entries for two minutes. |
| MemoryCache.UserScheduleCache | utils/cacheUtils.js:103 | The user schedule cache holds 100 entries for ten minutes. |
| MemoryCache.CacheKeysDistinct | utils/cacheUtils.js:110-130 | Each key builder is injective, and keys from different builders never coincide. |

## Left out

- File-system reads and writes, directory creation and JSON persistence of
  user and group files are I/O. For `addUserToGroupList` only the list update
  is modelled.
- The share-code HTTP fetch, the API status check and `parseNestedJson` are
  network and parsing. The import starts from the four already-parsed
  segments.
- Message handling, replies, recall, the rule table, image rendering and the
  bot's member lookup are framework and foreign calls. In `GroupBoard` the
  member lookup is the parameter `nameOf`. The two `existsSync` checks are
  `hasFile` and `docOf`, and reading the group's list file is `userList`.
  The avatar URL is not modelled.
- NextClass.UsersWithSchedule: a list file that fails to parse makes the
  source return an empty list from its catch block. Parsing is not modelled,
  so this case is covered only as `None`, like a missing file.
- JavaScript `Date` arithmetic and time zones are not modelled. The inputs
  are the millisecond or day delta from the start date, `getDay()`, the hour
  and the minute. `daysSince` stands for parsing the stored start date.
- `Date.now()` in the cache is not modelled; `now` is a parameter.
- The logger calls and the try/catch fallbacks that only produce the "数据错误"
  and "系统错误" rows are not modelled.
- Text.JsNumber: handles the empty string and ASCII decimal digits. Signs,
  whitespace, fractions, exponents and hexadecimal, which `Number()` also
  accepts, give NaN in the model.
- NextClass.Truncate: lengths count Dafny characters. JavaScript counts
  UTF-16 code units, which differ only for characters outside the Basic
  Multilingual Plane.
- TimeUtils.FindConsecutiveClasses: requires `startIndex` to be in range.
  The source throws a TypeError on `undefined.endTime` otherwise. An omitted
  `maxInterval` argument is `None` and means `DefaultMaxInterval` (30).
- NextClass.FindNextClass: `sort((a, b) => a.node - b.node)` is a stable
  sort. It is modelled by reading the periods in ascending key order, each
  period's list in its own order. That is the order a stable sort leaves
  after `Object.entries` lists integer keys ascending.
- MemoryCache.Set: no bound `size() <= maxSize` is stated, because the code
  does not keep one. `SizeCanExceedMax` shows a case where the bound fails.
- Values stored in the cache are a type parameter. Their contents and
  truthiness are not modelled: every stored item is an object, hence truthy.
- guoba.support.js is static plugin metadata and is not part of this model.

=== FILE: calendar.dfy ===
/** Calendar arithmetic shared by "today's schedule" and the next-class
    query: whole days elapsed, the teaching week they fall in, and the
    Monday = 1 .. Sunday = 7 weekday numbering the schedule is keyed by. */
module Calendar {

  const MillisPerDay: int := 1000 * 60 * 60 * 24

  /** `Math.floor(deltaMillis / 86400000)`: the whole days elapsed, rounded
      towards minus infinity when the current time precedes the start. */
  function DayDelta(deltaMillis: int): (d: int)
    ensures MillisPerDay * d <= deltaMillis < MillisPerDay * (d + 1)
  {
    deltaMillis / MillisPerDay
  }

  /** `Math.floor(deltaDays / 7) + 1`: day 0 of the term opens week 1, and
      every further seven days open the next week. Nothing clamps the result,
      so a date before the term start gives week 0 or below. */
  function CalculateCurrentWeek(deltaDays: int): (w: int)
    ensures 7 * (w - 1) <= deltaDays < 7 * w
  {
    deltaDays / 7 + 1
  }

  /** The week number of a moment `deltaMillis` after the term start. */
  function WeekOfMillis(deltaMillis: int): int {
    CalculateCurrentWeek(DayDelta(deltaMillis))
  }

  /** `getDay() === 0 ? 7 : getDay()`: Sunday (0) becomes 7 and Monday .. Saturday
      keep 1 .. 6. */
  function CurrentDay(getDay: int): (d: int)
    requires 0 <= getDay <= 6
    ensures 1 <= d <= 7
    ensures d % 7 == getDay
  {
    if getDay == 0 then 7 else getDay
  }

  /** The week number is determined by the day count alone: a week is exactly
      the seven days `[7 (w - 1), 7 w)`. */
  lemma WeekIsUnique(deltaDays: int, w: int)
    requires 7 * (w - 1) <= deltaDays < 7 * w
    ensures CalculateCurrentWeek(deltaDays) == w
  {
  }

  /** Seven more days is exactly one more week; the week never decreases as
      time passes. */
  lemma WeekAdvances(d1: int, d2: int)
    ensures CalculateCurrentWeek(d1 + 7) == CalculateCurrentWeek(d1) + 1
    ensures d1 <= d2 ==> CalculateCurrentWeek(d1) <= CalculateCurrentWeek(d2)
  {
    WeekIsUnique(d1 + 7, CalculateCurrentWeek(d1) + 1);
  }

  /** The first seven days of the term are week 1, the eighth opens week 2,
      and any day before the start falls in week 0 or earlier. */
  lemma FirstWeeks(d: int)
    ensures 0 <= d < 7 ==> CalculateCurrentWeek(d) == 1
    ensures CalculateCurrentWeek(7) == 2
    ensures d < 0 ==> CalculateCurrentWeek(d) <= 0
  {
    if 0 <= d < 7 {
      WeekIsUnique(d, 1);
    }
    WeekIsUnique(7, 2);
  }

  /** Week `w` covers exactly the moments from `7 (w - 1)` days to `7 w` days
      after the term start, measured in milliseconds. */
  lemma WeekOfMillisBounds(deltaMillis: int)
    ensures var w := WeekOfMillis(deltaMillis);
      7 * MillisPerDay * (w - 1) <= deltaMillis < 7 * MillisPerDay * w
  {
    var d := DayDelta(deltaMillis);
    var w := CalculateCurrentWeek(d);
    assert MillisPerDay * (7 * (w - 1)) <= MillisPerDay * d;
    assert MillisPerDay * (d + 1) <= MillisPerDay * (7 * w);
  }
}

=== FILE: classtable.dfy ===
/** The pure parts of the plugin's command handlers: the text reply listing
    today's classes, and membership of the per-group user list. */
module Classtable {
  import opened Common
  import opened Text
  import opened Schedule
  import opened Calendar

  const NoClassText: string := "今日无课程安排。"
  const Separator: string := "====================\n"

  /** Today's classes in period order, or `None` when the schedule has no
      entry for this week or this day. */
  function TodayListing(schedule: WeekMap, week: int, day: int): (r: Option<seq<Tagged>>)
    ensures r.Some? <==> week in schedule && day in schedule[week]
    ensures r.Some? ==> NodeOrdered(r.value)
    ensures r.Some? ==> forall n :: OccurrencesAt(r.value, n) == Cell(schedule, week, day, n)
  {
    if week in schedule && day in schedule[week] then Some(FlattenDay(schedule[week][day]))
    else None
  }

  function Header(week: int, day: int): string {
    "今日课表 (周次: " + IntToString(week) + ", 星期: " + IntToString(day) + "):\n"
  }

  /** One class as the reply prints it: separator, course, teacher, start-end. */
  function Block(o: Occurrence): string {
    Separator
    + "课程: " + o.courseName + "\n"
    + "教师: " + o.teacher + "\n"
    + "时间: " + o.startTime + "-" + o.endTime + "\n"
  }

  function Blocks(ts: seq<Tagged>): string {
    if ts == [] then "" else Block(ts[0].occ) + Blocks(ts[1..])
  }

  /** The reply text for week `week`, day `day`. A present day prints the
      header even when it holds no class; an absent one prints the fixed
      "no classes" line and nothing else. */
  function TodayText(schedule: WeekMap, week: int, day: int): (r: string)
    ensures r == NoClassText <==> TodayListing(schedule, week, day).None?
    ensures TodayListing(schedule, week, day).Some? ==>
      r == Header(week, day) + Blocks(TodayListing(schedule, week, day).value)
  {
    match TodayListing(schedule, week, day)
    case None => NoClassText
    case Some(ts) =>
      var r := Header(week, day) + Blocks(ts);
      assert |r| >= |Header(week, day)| > |NoClassText|;
      r
  }

  /** `getTodaySchedule(schedule, now)`: `deltaMillis` is `now` minus the
      fixed term start 2025-09-01 and `getDay` is `now.getDay()`. */
  function GetTodaySchedule(schedule: WeekMap, deltaMillis: int, getDay: int): (r: string)
    requires 0 <= getDay <= 6
    ensures r == NoClassText <==>
      TodayListing(schedule, WeekOfMillis(deltaMillis), CurrentDay(getDay)).None?
  {
    TodayText(schedule, WeekOfMillis(deltaMillis), CurrentDay(getDay))
  }

  /** Printing a concatenation prints each part in turn. */
  lemma {:induction false} BlocksAppend(a: seq<Tagged>, b: seq<Tagged>)
    ensures Blocks(a + b) == Blocks(a) + Blocks(b)
  {
    if a == [] {
      assert a + b == b;
    } else {
      assert (a + b)[1..] == a[1..] + b;
      BlocksAppend(a[1..], b);
    }
  }

  /** A day with a single period holding a single class prints the header and
      exactly that one block. */
  lemma OneClassDay(week: int, day: int, node: int, o: Occurrence)
    ensures TodayText(map[week := map[day := map[node := [o]]]], week, day)
      == Header(week, day) + Block(o)
  {
    FlattenSingle(node, o);
    assert Blocks([Tagged(node, o)]) == Block(o) + Blocks([]);
  }

  /** A day with no periods at all still prints the header. */
  lemma EmptyDayPrintsHeader(week: int, day: int)
    ensures TodayText(map[week := map[day := map[]]], week, day) == Header(week, day)
  {
  }

  /** `addUserToGroupList`: the user is appended unless already present. */
  function AddUserToGroupList(list: seq<string>, user: string): (r: seq<string>)
    ensures user in r
    ensures forall x :: x in r <==> x in list || x == user
    ensures |list| <= |r| && r[..|list|] == list
    ensures |r| == |list| + (if user in list then 0 else 1)
  {
    if user in list then list else list + [user]
  }

  predicate NoDuplicates(list: seq<string>) {
    forall i, j :: 0 <= i < j < |list| ==> list[i] != list[j]
  }

  /** Adding a user keeps a duplicate-free list duplicate-free, and adding the
      same user twice changes nothing the second time. */
  lemma AddUserKeepsListClean(list: seq<string>, user: string)
    ensures NoDuplicates(list) ==> NoDuplicates(AddUserToGroupList(list, user))
    ensures AddUserToGroupList(AddUserToGroupList(list, user), user)
      == AddUserToGroupList(list, user)
  {
    var r := AddUserToGroupList(list, user);
    if NoDuplicates(list) && user !in list {
      forall i, j | 0 <= i < j < |r| ensures r[i] != r[j] {
        if j == |list| {
          assert r[i] == list[i];
        }
      }
    }
  }
}

=== FILE: common.dfy ===
/** Small shared datatypes. */
module Common {

  /** A value that may be missing. In the time utilities `None` stands for the
      JavaScript `NaN`/`undefined` that a failed `Number(...)` conversion yields. */
  datatype Option<+T> = None | Some(value: T) {

    /** The wrapped value, or `default` when there is none. */
    function GetOr(default: T): T {
      match this
      case Some(v) => v
      case None => default
    }
  }

  /** An operation that either produced a value or stopped with an error. */
  datatype Result<+T, +E> = Success(value: T) | Failure(error: E)
}

=== FILE: memory_cache.dfy ===
/** The in-memory cache: entries with an expiry time, a read counter per key,
    and eviction of the least-read key when a new key arrives at a full cache.
    The clock is a parameter (`now`, in milliseconds). */
module MemoryCache {
  import opened Common
  import OM = OrderedMap

  const DefaultMaxSize: int := 100
  const DefaultTTL: int := 5 * 60 * 1000

  datatype Item<V> = Item(value: V, expireAt: int)

  /** `items` and `accessCounts` are the two insertion-ordered maps of the
      cache object; `maxSize` and `defaultTTL` are fixed at construction. */
  datatype Cache<V> = Cache(items: OM.Entries<Item<V>>, accessCounts: OM.Entries<int>,
                            maxSize: int, defaultTTL: int)

  /** Both maps hold each key at most once, and only a stored key has a read
      count. */
  predicate Valid<V>(c: Cache<V>) {
    OM.Distinct(c.items) && OM.Distinct(c.accessCounts)
    && forall k :: k in OM.Keys(c.accessCounts) ==> k in OM.Keys(c.items)
  }

  function ItemOf<V>(c: Cache<V>, key: string): Option<Item<V>> {
    OM.Get(c.items, key)
  }

  /** `accessCounts.get(key) || 0`. */
  function CountOf<V>(c: Cache<V>, key: string): int {
    OM.Get(c.accessCounts, key).GetOr(0)
  }

  /** `size()`: the number of stored entries, expired ones included. */
  function Size<V>(c: Cache<V>): nat {
    |c.items|
  }

  /** `new MemoryCache(maxSize, defaultTTL)`; an omitted argument takes its
      default (100 entries, five minutes). */
  function New<V>(maxSize: Option<int>, defaultTTL: Option<int>): (c: Cache<V>)
    ensures Valid(c) && Size(c) == 0
    ensures forall k :: ItemOf(c, k).None? && CountOf(c, k) == 0
    ensures c.maxSize == maxSize.GetOr(DefaultMaxSize)
    ensures c.defaultTTL == defaultTTL.GetOr(DefaultTTL)
  {
    Cache([], [], maxSize.GetOr(DefaultMaxSize), defaultTTL.GetOr(DefaultTTL))
  }

  /** `delete(key)`: the key leaves both maps; everything else stays. */
  function Delete<V>(c: Cache<V>, key: string): (r: Cache<V>)
    ensures ItemOf(r, key).None? && CountOf(r, key) == 0
    ensures forall k :: k != key ==> ItemOf(r, k) == ItemOf(c, k) && CountOf(r, k) == CountOf(c, k)
    ensures r.maxSize == c.maxSize && r.defaultTTL == c.defaultTTL
    ensures Size(r) <= Size(c)
    ensures Valid(c) ==> Valid(r) && Size(r) == Size(c) - (if ItemOf(c, key).Some? then 1 else 0)
    ensures key !in OM.Keys(c.items) ==> r.items == c.items
    ensures key !in OM.Keys(c.accessCounts) ==> r.accessCounts == c.accessCounts
    ensures Valid(c) ==> forall i :: 0 <= i < |c.items| && c.items[i].0 == key ==>
      r.items == c.items[..i] + c.items[i+1..]
    ensures Valid(c) ==> forall i :: 0 <= i < |c.accessCounts| && c.accessCounts[i].0 == key ==>
      r.accessCounts == c.accessCounts[..i] + c.accessCounts[i+1..]
  {
    OM.DeleteClosesGap(c.items, key);
    OM.DeleteClosesGap(c.accessCounts, key);
    OM.DeleteKeepsDistinct(c.items, key);
    OM.DeleteKeepsDistinct(c.accessCounts, key);
    c.(items := OM.Delete(c.items, key), accessCounts := OM.Delete(c.accessCounts, key))
  }

  datatype Lookup<V> = Lookup(cache: Cache<V>, value: Option<V>)

  /** `get(key)` at time `now`: a missing key changes nothing; an entry whose
      expiry lies strictly before `now` is deleted and not returned; a live
      entry is returned and its read count goes up by one. */
  function Get<V>(c: Cache<V>, key: string, now: int): (r: Lookup<V>)
    ensures ItemOf(c, key).None? ==> r == Lookup(c, None)
    ensures ItemOf(c, key).Some? && now > ItemOf(c, key).value.expireAt ==>
      r == Lookup(Delete(c, key), None)
    ensures ItemOf(c, key).Some? && now <= ItemOf(c, key).value.expireAt ==>
      (r.value == Some(ItemOf(c, key).value.value)
       && r.cache.items == c.items
       && CountOf(r.cache, key) == CountOf(c, key) + 1
       && (forall k :: k != key ==> CountOf(r.cache, k) == CountOf(c, k))
       && OM.Keys(r.cache.accessCounts) ==
            if key in OM.Keys(c.accessCounts) then OM.Keys(c.accessCounts)
            else OM.Keys(c.accessCounts) + [key])
    ensures r.cache.maxSize == c.maxSize && r.cache.defaultTTL == c.defaultTTL
    ensures Valid(c) ==> Valid(r.cache)
  {
    match ItemOf(c, key)
    case None => Lookup(c, None)
    case Some(item) =>
      if now > item.expireAt then Lookup(Delete(c, key), None)
      else
        OM.SetKeepsDistinct(c.accessCounts, key, CountOf(c, key) + 1);
        OM.SetGet(c.accessCounts, key, CountOf(c, key) + 1);
        var counts := OM.Set(c.accessCounts, key, CountOf(c, key) + 1);
        Lookup(c.(accessCounts := counts), Some(item.value))
  }

  /** Entry `i` holds the smallest count, and every entry before it a strictly
      larger one: the key a scan with `count < minCount` ends on. */
  predicate FirstMinimum(counts: OM.Entries<int>, i: int) {
    0 <= i < |counts|
    && (forall j :: 0 <= j < |counts| ==> counts[i].1 <= counts[j].1)
    && (forall j :: 0 <= j < i ==> counts[j].1 > counts[i].1)
  }

  /** The scan of `evictLRU` from position `from` on, `best` being the position
      it holds so far (none before the first entry, as `minCount` starts at
      Infinity). */
  function ScanLeast(counts: OM.Entries<int>, from: nat, best: Option<nat>): (r: Option<nat>)
    requires from <= |counts|
    requires best.None? <==> from == 0
    requires best.Some? ==> FirstMinimum(counts[..from], best.value)
    ensures r.None? <==> counts == []
    ensures r.Some? ==> FirstMinimum(counts, r.value)
    decreases |counts| - from
  {
    if from == |counts| then
      assert counts[..from] == counts;
      best
    else
      var next := if best.None? || counts[from].1 < counts[best.value].1 then Some(from) else best;
      assert counts[..from + 1] == counts[..from] + [counts[from]];
      ScanLeast(counts, from + 1, next)
  }

  /** The first minimum is unique. */
  lemma FirstMinimumUnique(counts: OM.Entries<int>, i: int, j: int)
    requires FirstMinimum(counts, i) && FirstMinimum(counts, j)
    ensures i == j
  {
    assert counts[i].1 <= counts[j].1 && counts[j].1 <= counts[i].1;
  }

  /** `evictLRU()`: deletes the first key with the fewest reads, unless that
      key is the empty string (falsy, so the `if (minKey)` guard skips it) or
      no key was ever read. A key never read has no count and is never chosen. */
  function EvictLRU<V>(c: Cache<V>): (r: Cache<V>)
    ensures c.accessCounts == [] ==> r == c
    ensures forall i :: FirstMinimum(c.accessCounts, i) ==>
      r == (if c.accessCounts[i].0 == "" then c else Delete(c, c.accessCounts[i].0))
    ensures Size(r) <= Size(c)
    ensures Valid(c) ==> Valid(r)
  {
    match ScanLeast(c.accessCounts, 0, None)
    case None => c
    case Some(i) =>
      forall j | FirstMinimum(c.accessCounts, j) ensures j == i {
        FirstMinimumUnique(c.accessCounts, i, j);
      }
      var key := c.accessCounts[i].0;
      if key == "" then c else Delete(c, key)
  }

  /** `set(key, value, ttl)` at time `now`: a new key arriving at a full cache
      first triggers an eviction; the entry then expires `ttl` (or the default
      lifetime) after `now`. Rewriting a key keeps its place and its count. */
  function Set<V>(c: Cache<V>, key: string, value: V, ttl: Option<int>, now: int): (r: Cache<V>)
    ensures ItemOf(r, key) == Some(Item(value, now + ttl.GetOr(c.defaultTTL)))
    ensures (ItemOf(c, key).Some? || Size(c) < c.maxSize) ==>
      (r.accessCounts == c.accessCounts && forall k :: k != key ==> ItemOf(r, k) == ItemOf(c, k))
    ensures (ItemOf(c, key).None? && Size(c) >= c.maxSize) ==>
      (r.accessCounts == EvictLRU(c).accessCounts
       && forall k :: k != key ==> ItemOf(r, k) == ItemOf(EvictLRU(c), k))
    ensures Size(r) <= Size(c) + 1
    ensures r.maxSize == c.maxSize && r.defaultTTL == c.defaultTTL
    ensures Valid(c) ==> Valid(r)
  {
    var base := if Size(c) >= c.maxSize && ItemOf(c, key).None? then EvictLRU(c) else c;
    var item := Item(value, now + ttl.GetOr(c.defaultTTL));
    OM.SetKeepsDistinct(base.items, key, item);
    OM.SetGet(base.items, key, item);
    base.(items := OM.Set(base.items, key, item))
  }

  /** `clear()`: both maps are emptied; the limits stay. */
  function Clear<V>(c: Cache<V>): (r: Cache<V>)
    ensures Valid(r) && Size(r) == 0
    ensures forall k :: ItemOf(r, k).None? && CountOf(r, k) == 0
    ensures r.maxSize == c.maxSize && r.defaultTTL == c.defaultTTL
  {
    c.(items := [], accessCounts := [])
  }

  /** A value stored with lifetime `ttl` at `now` is read back up to and
      including its expiry instant, and is gone (and deleted) after it. */
  lemma SetThenGet<V>(c: Cache<V>, key: string, value: V, ttl: Option<int>, now: int, later: int)
    ensures var expireAt := now + ttl.GetOr(c.defaultTTL);
      var l := Get(Set(c, key, value, ttl, now), key, later);
      (later <= expireAt ==> l.value == Some(value))
      && (later > expireAt ==> l.value.None? && ItemOf(l.cache, key).None?)
  {
  }

  /** Eviction only ever removes a key that has been read: an entry that was
      never read survives it. */
  lemma UnreadEntriesSurviveEviction<V>(c: Cache<V>, k: string)
    requires Valid(c)
    requires k !in OM.Keys(c.accessCounts)
    ensures ItemOf(EvictLRU(c), k) == ItemOf(c, k)
  {
    match ScanLeast(c.accessCounts, 0, None)
    case None =>
    case Some(i) =>
      assert OM.Keys(c.accessCounts)[i] == c.accessCounts[i].0;
  }

  /** At a full cache whose least-read key is a real (non-empty) key, storing
      a new key evicts one entry and adds one: the size stays the same. */
  lemma FullCacheKeepsSize<V>(c: Cache<V>, key: string, value: V, ttl: Option<int>, now: int, i: int)
    requires Valid(c) && Size(c) >= c.maxSize && ItemOf(c, key).None?
    requires FirstMinimum(c.accessCounts, i) && c.accessCounts[i].0 != ""
    ensures Size(Set(c, key, value, ttl, now)) == Size(c)
  {
    var victim := c.accessCounts[i].0;
    assert OM.Keys(c.accessCounts)[i] == victim;
    var base := EvictLRU(c);
    assert base == Delete(c, victim);
    assert Size(base) == Size(c) - 1;
    assert ItemOf(base, key).None?;
  }

  /** Storing a new key at a full cache removes exactly the first least-read
      entry (when it is a real key): that entry is gone, every other entry
      stays, and the new key reads back. */
  lemma FullCacheEvictsLeastRead<V>(c: Cache<V>, key: string, value: V, ttl: Option<int>, now: int, i: int)
    requires Valid(c) && Size(c) >= c.maxSize && ItemOf(c, key).None?
    requires FirstMinimum(c.accessCounts, i) && c.accessCounts[i].0 != ""
    ensures ItemOf(c, c.accessCounts[i].0).Some?
    ensures ItemOf(Set(c, key, value, ttl, now), c.accessCounts[i].0).None?
    ensures forall k :: k != key && k != c.accessCounts[i].0 ==>
      ItemOf(Set(c, key, value, ttl, now), k) == ItemOf(c, k)
  {
    var victim := c.accessCounts[i].0;
    assert ItemOf(c, victim).Some? by {
      assert OM.Keys(c.accessCounts)[i] == victim;
    }
    var base := EvictLRU(c);
    assert base == Delete(c, victim);
    var r := Set(c, key, value, ttl, now);
    assert ItemOf(r, victim) == ItemOf(base, victim);
    forall k | k != key && k != victim
      ensures ItemOf(r, k) == ItemOf(c, k)
    {
      assert ItemOf(r, k) == ItemOf(base, k);
    }
  }

  /** When nothing has been read yet, nothing can be evicted: a cache limited
      to one entry holds two after two writes. */
  lemma SizeCanExceedMax()
    ensures var c := Set(Set(New<int>(Some(1), None), "a", 1, None, 0), "b", 2, None, 0);
      c.maxSize == 1 && Size(c) == 2
  {
    var c0 := New<int>(Some(1), None);
    assert c0 == Cache([], [], 1, DefaultTTL);
    var c1 := Set(c0, "a", 1, None, 0);
    assert c1 == Cache([("a", Item(1, DefaultTTL))], [], 1, DefaultTTL);
    assert EvictLRU(c1) == c1;
    var c2 := Set(c1, "b", 2, None, 0);
    assert c2 == Cache([("a", Item(1, DefaultTTL)), ("b", Item(2, DefaultTTL))], [], 1, DefaultTTL);
  }

  /** The two shared caches: group query results (50 entries, two minutes)
      and user schedules (100 entries, ten minutes). */
  function GroupQueryCache<V>(): (c: Cache<V>)
    ensures Valid(c) && Size(c) == 0 && c.maxSize == 50 && c.defaultTTL == 2 * 60 * 1000
  {
    New(Some(50), Some(2 * 60 * 1000))
  }

  function UserScheduleCache<V>(): (c: Cache<V>)
    ensures Valid(c) && Size(c) == 0 && c.maxSize == 100 && c.defaultTTL == 10 * 60 * 1000
  {
    New(Some(100), Some(10 * 60 * 1000))
  }

  const GroupPrefix: string := "group_query:"
  const UserSchedulePrefix: string := "user_schedule:"
  const SkipClassPrefix: string := "skip_class:"

  function GroupCacheKey(groupId: string): string {
    GroupPrefix + groupId
  }

  function UserScheduleCacheKey(userId: string): string {
    UserSchedulePrefix + userId
  }

  function SkipClassCacheKey(userId: string): string {
    SkipClassPrefix + userId
  }

  /** Each kind of key names one id, and keys of different kinds never meet,
      so the caches cannot confuse one entry for another. */
  lemma CacheKeysDistinct(a: string, b: string)
    ensures GroupCacheKey(a) == GroupCacheKey(b) <==> a == b
    ensures UserScheduleCacheKey(a) == UserScheduleCacheKey(b) <==> a == b
    ensures SkipClassCacheKey(a) == SkipClassCacheKey(b) <==> a == b
    ensures GroupCacheKey(a) != UserScheduleCacheKey(b)
    ensures GroupCacheKey(a) != SkipClassCacheKey(b)
    ensures UserScheduleCacheKey(a) != SkipClassCacheKey(b)
  {
    assert GroupCacheKey(a)[|GroupPrefix|..] == a && GroupCacheKey(b)[|GroupPrefix|..] == b;
    assert UserScheduleCacheKey(a)[|UserSchedulePrefix|..] == a;
    assert UserScheduleCacheKey(b)[|UserSchedulePrefix|..] == b;
    assert SkipClassCacheKey(a)[|SkipClassPrefix|..] == a && SkipClassCacheKey(b)[|SkipClassPrefix|..] == b;
    assert GroupCacheKey(a)[0] == 'g' && UserScheduleCacheKey(a)[0] == 'u';
    assert UserScheduleCacheKey(b)[0] == 'u' && SkipClassCacheKey(b)[0] == 's';
  }
}

=== FILE: next_class.dfy ===
/** The group "next class" board: for each member, the class running now or
    the next one still to start today, and the display row derived from it. */
module NextClass {
  import opened Common
  import opened Schedule
  import opened TimeUtils
  import opened Calendar
  import Normalizer

  datatype ClassStatus = Ongoing | Upcoming

  /** `{ status: 'noneToday' }`, or the chosen class with its node, its `week`
      overwritten by the current week, and whether it is running or upcoming. */
  datatype NextClassInfo = NoneToday | Found(status: ClassStatus, cls: Occurrence, node: int)

  /** The class is running at `h:m`: at or after its start, before its end. */
  predicate OngoingAt(t: Tagged, h: int, m: int) {
    IsInClassTime(t.occ.startTime, t.occ.endTime, h, m)
  }

  /** The class starts strictly after `h:m`. */
  predicate StartsAfter(t: Tagged, h: int, m: int) {
    Before(h, m, ParseTimeString(t.occ.startTime))
  }

  /** Index of the first element satisfying `p`, as a `for ... of` loop with an
      early `return` finds it. */
  function FirstWhere<T>(xs: seq<T>, p: T -> bool): (r: Option<nat>)
    ensures r.Some? ==> r.value < |xs| && p(xs[r.value])
    ensures r.Some? ==> forall j :: 0 <= j < r.value ==> !p(xs[j])
    ensures r.None? ==> forall j :: 0 <= j < |xs| ==> !p(xs[j])
  {
    if xs == [] then None
    else if p(xs[0]) then Some(0)
    else match FirstWhere(xs[1..], p)
      case None => None
      case Some(i) => Some(i + 1)
  }

  /** Today's classes in ascending node order; none when the schedule has no
      entry for this week or day. */
  function TodayClasses(schedule: WeekMap, week: int, day: int): seq<Tagged> {
    if week in schedule && day in schedule[week] then FlattenDay(schedule[week][day]) else []
  }

  /** Entry `i` of `today` is the class the query settles on with `status`:
      the first running class, or, when none is running, the first class that
      has yet to start. */
  predicate Picks(today: seq<Tagged>, i: int, status: ClassStatus, h: int, m: int) {
    0 <= i < |today|
    && match status
       case Ongoing =>
         OngoingAt(today[i], h, m) && forall j :: 0 <= j < i ==> !OngoingAt(today[j], h, m)
       case Upcoming =>
         (forall j :: 0 <= j < |today| ==> !OngoingAt(today[j], h, m))
         && StartsAfter(today[i], h, m)
         && forall j :: 0 <= j < i ==> !StartsAfter(today[j], h, m)
  }

  /** `r` reports entry `i` of `today`: the class as the query settles on it,
      its `week` replaced by the current week, tagged with its node. */
  predicate Reports(r: NextClassInfo, today: seq<Tagged>, i: int, week: int, h: int, m: int) {
    r.Found? && Picks(today, i, r.status, h, m)
    && r.cls == today[i].occ.(week := week) && r.node == today[i].node
  }

  /** The two scans of `findNextClass` over one day's node-ordered classes. */
  function QueryDay(today: seq<Tagged>, week: int, h: int, m: int): (r: NextClassInfo)
    ensures r.NoneToday? <==>
      forall j :: 0 <= j < |today| ==> !OngoingAt(today[j], h, m) && !StartsAfter(today[j], h, m)
    ensures r.Found? ==> exists i :: Reports(r, today, i, week, h, m)
  {
    if |today| == 0 then NoneToday
    else match FirstWhere(today, t => OngoingAt(t, h, m))
      case Some(i) =>
        var r := Found(Ongoing, today[i].occ.(week := week), today[i].node);
        assert Reports(r, today, i, week, h, m);
        r
      case None =>
        assert forall j :: 0 <= j < |today| ==> !OngoingAt(today[j], h, m);
        match FirstWhere(today, t => StartsAfter(t, h, m))
        case Some(i) =>
          var r := Found(Upcoming, today[i].occ.(week := week), today[i].node);
          assert Reports(r, today, i, week, h, m);
          r
        case None => NoneToday
  }

  /** `findNextClass(schedule, week, day, h, m)`. */
  function FindNextClass(schedule: WeekMap, week: int, day: int, h: int, m: int): (r: NextClassInfo)
    ensures !(week in schedule && day in schedule[week]) ==> r == NoneToday
    ensures var today := TodayClasses(schedule, week, day);
      r.NoneToday? <==> forall j :: 0 <= j < |today| ==>
        !OngoingAt(today[j], h, m) && !StartsAfter(today[j], h, m)
    ensures var today := TodayClasses(schedule, week, day);
      r.Found? ==> exists i :: Reports(r, today, i, week, h, m)
  {
    var today := TodayClasses(schedule, week, day);
    if !(week in schedule && day in schedule[week]) then NoneToday
    else QueryDay(today, week, h, m)
  }

  /** A class is never both running and yet to start. */
  lemma OngoingNotUpcoming(t: Tagged, h: int, m: int)
    ensures !(OngoingAt(t, h, m) && StartsAfter(t, h, m))
  {
  }

  /** The chosen class is a real entry of the schedule cell at its node, with
      only `week` replaced by the current week. */
  lemma FoundIsScheduled(schedule: WeekMap, week: int, day: int, h: int, m: int)
    ensures var r := FindNextClass(schedule, week, day, h, m);
      r.Found? ==> (r.cls.week == week
        && exists o :: o in Cell(schedule, week, day, r.node) && r.cls == o.(week := week))
  {
    var r := FindNextClass(schedule, week, day, h, m);
    if r.Found? {
      var today := TodayClasses(schedule, week, day);
      var i :| Reports(r, today, i, week, h, m);
      OccurrencesAtMember(today, i);
      assert today[i].occ in Cell(schedule, week, day, r.node);
    }
  }

  /** Among all classes in the same state (running, or yet to start) the
      chosen one has the lowest node. */
  lemma FoundHasLowestNode(schedule: WeekMap, week: int, day: int, h: int, m: int)
    ensures var r := FindNextClass(schedule, week, day, h, m);
      var today := TodayClasses(schedule, week, day);
      r.Found? ==> forall j :: 0 <= j < |today| ==>
        ((if r.status.Ongoing? then OngoingAt(today[j], h, m) else StartsAfter(today[j], h, m))
         ==> r.node <= today[j].node)
  {
    var r := FindNextClass(schedule, week, day, h, m);
    var today := TodayClasses(schedule, week, day);
    if r.Found? {
      var i :| Reports(r, today, i, week, h, m);
      forall j | 0 <= j < |today|
        && (if r.status.Ongoing? then OngoingAt(today[j], h, m) else StartsAfter(today[j], h, m))
        ensures r.node <= today[j].node
      {
        if i < j {
          assert today[i].node <= today[j].node;
        }
      }
    }
  }

  /** A running class always wins over one that is yet to start. */
  lemma OngoingFirst(schedule: WeekMap, week: int, day: int, h: int, m: int, j: int)
    requires 0 <= j < |TodayClasses(schedule, week, day)|
    requires OngoingAt(TodayClasses(schedule, week, day)[j], h, m)
    ensures FindNextClass(schedule, week, day, h, m).Found?
    ensures FindNextClass(schedule, week, day, h, m).status == Ongoing
  {
  }

  /** The chosen class always has a numeric start hour, so a class whose times
      were left as the placeholder "未知" is never shown. */
  lemma FoundHasStartHour(schedule: WeekMap, week: int, day: int, h: int, m: int)
    ensures var r := FindNextClass(schedule, week, day, h, m);
      r.Found? ==> (ParseTimeString(r.cls.startTime).hour.Some?
        && r.cls.startTime != Normalizer.UnknownTime)
  {
    var r := FindNextClass(schedule, week, day, h, m);
    if r.Found? {
      var today := TodayClasses(schedule, week, day);
      var i :| Reports(r, today, i, week, h, m);
      UnknownTimeIsNaN();
    }
  }

  /** The classes of a day holding one class `o` at `node`. */
  lemma SingleClassDay(week: int, day: int, node: int, o: Occurrence)
    ensures TodayClasses(map[week := map[day := map[node := [o]]]], week, day) == [Tagged(node, o)]
  {
    FlattenSingle(node, o);
  }

  /** On a day with one class, the query reports that class as running when
      it runs, as upcoming when it is yet to start, and nothing otherwise. */
  lemma SingleQuery(week: int, day: int, node: int, o: Occurrence, h: int, m: int)
    ensures var t := Tagged(node, o);
      FindNextClass(map[week := map[day := map[node := [o]]]], week, day, h, m)
        == if OngoingAt(t, h, m) then Found(Ongoing, o.(week := week), node)
           else if StartsAfter(t, h, m) then Found(Upcoming, o.(week := week), node)
           else NoneToday
  {
    SingleClassDay(week, day, node, o);
    var t := Tagged(node, o);
    var r := QueryDay([t], week, h, m);
    if r.Found? {
      var i :| Reports(r, [t], i, week, h, m);
      assert i == 0;
    }
  }

  /** A day holding one class from `sh:sm` to `eh:em` shows it as running
      from its first minute. */
  lemma RunningFromStart(week: int, day: int, node: int, o: Occurrence,
                         sh: nat, sm: nat, eh: nat, em: nat)
    requires sm < 60 && em < 60 && sh * 60 + sm < eh * 60 + em
    requires o.startTime == FormatTime(sh, sm) && o.endTime == FormatTime(eh, em)
    ensures FindNextClass(map[week := map[day := map[node := [o]]]], week, day, sh, sm)
      == Found(Ongoing, o.(week := week), node)
  {
    assert OngoingAt(Tagged(node, o), sh, sm) by {
      IsInClassTimeHalfOpen(sh, sm, eh, em);
    }
    SingleQuery(week, day, node, o, sh, sm);
  }

  /** The minute before its start the class is announced as upcoming. */
  lemma UpcomingJustBefore(week: int, day: int, node: int, o: Occurrence,
                           sh: nat, sm: nat, eh: nat, em: nat)
    requires sm < 60 && em < 60 && sh * 60 + sm < eh * 60 + em
    requires o.startTime == FormatTime(sh, sm) && o.endTime == FormatTime(eh, em)
    ensures var p := PrevMinute(sh, sm);
      FindNextClass(map[week := map[day := map[node := [o]]]], week, day, p.0, p.1)
        == Found(Upcoming, o.(week := week), node)
  {
    var t := Tagged(node, o);
    var p := PrevMinute(sh, sm);
    assert !OngoingAt(t, p.0, p.1) by {
      IsInClassTimeHalfOpen(sh, sm, eh, em);
    }
    assert StartsAfter(t, p.0, p.1) by {
      ParseFormatRoundTrip(sh, sm);
    }
    SingleQuery(week, day, node, o, p.0, p.1);
  }

  /** At its end minute the class is over and nothing else is left today. */
  lemma OverAtEnd(week: int, day: int, node: int, o: Occurrence,
                  sh: nat, sm: nat, eh: nat, em: nat)
    requires sm < 60 && em < 60 && sh * 60 + sm < eh * 60 + em
    requires o.startTime == FormatTime(sh, sm) && o.endTime == FormatTime(eh, em)
    ensures FindNextClass(map[week := map[day := map[node := [o]]]], week, day, eh, em) == NoneToday
  {
    var t := Tagged(node, o);
    assert !OngoingAt(t, eh, em) by {
      IsInClassTimeHalfOpen(sh, sm, eh, em);
    }
    assert !StartsAfter(t, eh, em) by {
      ParseFormatRoundTrip(sh, sm);
      LexicographicIsNumeric(eh, em, sh, sm);
    }
    SingleQuery(week, day, node, o, eh, em);
  }

  // ---------------------------------------------------------------------------
  // Display rows

  const UserNameLimit: nat := 14
  const CourseNameLimit: nat := 9
  const Ellipsis: string := "···"

  const IdleLabel: string := "空闲"
  const OngoingLabel: string := "上课中"
  const UpcomingLabel: string := "将开始"

  const NoDataUserName: string := "暂无数据"

  /** One entry of the rendered list. */
  datatype Row =
    | NoData
    | NotImported(userName: string)
    | Idle(userName: string)
    | Busy(userName: string, className: string, kind: string, typeColor: string,
           startTime: string, endTime: string)
  {
    predicate HasClass() {
      Busy?
    }

    /** The `userName` field; the "no data" row carries a fixed one. */
    function UserName(): string {
      if NoData? then NoDataUserName else userName
    }

    /** The `type` badge, absent from the rows that carry no status. */
    function Kind(): Option<string> {
      match this
      case Idle(_) => Some(IdleLabel)
      case Busy(_, _, kind, _, _, _) => Some(kind)
      case _ => None
    }

    function TypeColor(): Option<string> {
      match this
      case Idle(_) => Some("#50ff05ff")
      case Busy(_, _, _, color, _, _) => Some(color)
      case _ => None
    }

    function NoCourseTitle(): Option<string> {
      match this
      case NoData => Some("暂无课表数据")
      case NotImported(_) => Some("未导入课表")
      case Idle(_) => Some("今日课程已结束")
      case Busy(_, _, _, _, _, _) => None
    }

    function NoCourseTip(): Option<string> {
      match this
      case NoData => Some("群成员尚未导入课表")
      case NotImported(_) => Some("该用户尚未导入课表")
      case Idle(_) => Some("快去出勤吧")
      case Busy(_, _, _, _, _, _) => None
    }
  }

  /** `s.length > n ? s.substring(0, n) + "···" : s`. */
  function Truncate(s: string, n: nat): (r: string)
    ensures |s| <= n ==> r == s
    ensures |s| > n ==> |r| == n + |Ellipsis| && r[..n] == s[..n] && r[n..] == Ellipsis
  {
    if |s| > n then s[..n] + Ellipsis else s
  }

  /** Shortening keeps the visible prefix and is stable: shortening again
      changes nothing. */
  lemma TruncateStable(s: string, n: nat)
    ensures Truncate(Truncate(s, n), n) == Truncate(s, n)
    ensures |Truncate(s, n)| <= (if |s| <= n then |s| else n + |Ellipsis|)
    ensures var k := if |s| <= n then |s| else n; Truncate(s, n)[..k] == s[..k]
  {
    var r := Truncate(s, n);
    if |s| > n {
      assert r[..n] + Ellipsis == r;
    }
  }

  function StatusLabel(s: ClassStatus): string {
    match s
    case Ongoing => OngoingLabel
    case Upcoming => UpcomingLabel
  }

  function StatusColor(s: ClassStatus): string {
    match s
    case Ongoing => "#00eeffff"
    case Upcoming => "#ffb700ff"
  }

  /** The row of a member whose schedule was read: the badge tells apart
      "free for the rest of today", "in class" and "class coming up". */
  function RowFor(userName: string, info: NextClassInfo): (r: Row)
    ensures r.HasClass() <==> info.Found?
    ensures r.Kind() == Some(IdleLabel) <==> info.NoneToday?
    ensures r.Kind() == Some(OngoingLabel) <==> info.Found? && info.status == Ongoing
    ensures r.Kind() == Some(UpcomingLabel) <==> info.Found? && info.status == Upcoming
    ensures r.Idle? || r.Busy?
    ensures r.userName == Truncate(userName, UserNameLimit)
    ensures info.Found? ==>
      (r.className == Truncate(info.cls.courseName, CourseNameLimit)
       && r.startTime == info.cls.startTime && r.endTime == info.cls.endTime)
  {
    var name := Truncate(userName, UserNameLimit);
    match info
    case NoneToday => Idle(name)
    case Found(status, cls, _) =>
      Busy(name, Truncate(cls.courseName, CourseNameLimit), StatusLabel(status),
           StatusColor(status), cls.startTime, cls.endTime)
  }

  // ---------------------------------------------------------------------------
  // Stored documents

  /** Used when a stored document names no (or an empty) term start. */
  const DefaultStartDate: string := "2025-09-01"

  /** A member's stored file: `schedule` and `startDate` are the wrapper
      fields of the newer format, `weeks` the week-keyed entries of the bare
      format that the import writes. */
  datatype StoredData = StoredData(schedule: Option<WeekMap>, startDate: Option<string>, weeks: WeekMap)

  /** `scheduleData.schedule || scheduleData`. */
  function ScheduleOf(d: StoredData): (ws: WeekMap)
    ensures d.schedule.Some? ==> ws == d.schedule.value
    ensures d.schedule.None? ==> ws == d.weeks
  {
    if d.schedule.Some? then d.schedule.value else d.weeks
  }

  /** `scheduleData.startDate || "2025-09-01"`: an absent or empty start date
      falls back to the default. */
  function StartDateOf(d: StoredData): (s: string)
    ensures s != ""
    ensures d.startDate.Some? && d.startDate.value != "" ==> s == d.startDate.value
    ensures d.startDate.None? || d.startDate.value == "" ==> s == DefaultStartDate
  {
    if d.startDate.Some? && d.startDate.value != "" then d.startDate.value else DefaultStartDate
  }

  /** What the import stores: the bare week-keyed schedule. */
  function ImportedDocument(ws: WeekMap): (d: StoredData)
    ensures ScheduleOf(d) == ws && StartDateOf(d) == DefaultStartDate
  {
    StoredData(None, None, ws)
  }

  /** A document that wraps its weeks in a `schedule` field and one that is
      the bare week-keyed map give the same row: the wrapper wins over
      whatever else the document holds. */
  lemma WrappedAndBareAgree(userName: string, ws: WeekMap, startDate: Option<string>, other: WeekMap,
                            daysSince: string -> int, getDay: int, h: int, m: int)
    requires 0 <= getDay <= 6
    ensures UserRow(userName, Some(StoredData(Some(ws), startDate, other)), daysSince, getDay, h, m)
         == UserRow(userName, Some(StoredData(None, startDate, ws)), daysSince, getDay, h, m)
  {
    var wrapped, bare := StoredData(Some(ws), startDate, other), StoredData(None, startDate, ws);
    assert ScheduleOf(wrapped) == ScheduleOf(bare) && StartDateOf(wrapped) == StartDateOf(bare);
  }

  /** The row of one member. `doc` is `None` when the member has no stored
      file; `daysSince(start)` is the whole days from the start date to now,
      and `getDay`, `h`, `m` are now's weekday, hour and minute. */
  function UserRow(userName: string, doc: Option<StoredData>, daysSince: string -> int,
                   getDay: int, h: int, m: int): (r: Row)
    requires 0 <= getDay <= 6
    ensures doc.None? ==> r == NotImported(userName) && !r.HasClass()
    ensures r != NoData
    ensures doc.Some? ==>
      var week := CalculateCurrentWeek(daysSince(StartDateOf(doc.value)));
      var info := FindNextClass(ScheduleOf(doc.value), week, CurrentDay(getDay), h, m);
      r.HasClass() <==> info.Found?
  {
    match doc
    case None => NotImported(userName)
    case Some(d) =>
      var week := CalculateCurrentWeek(daysSince(StartDateOf(d)));
      RowFor(userName, FindNextClass(ScheduleOf(d), week, CurrentDay(getDay), h, m))
  }

  /** A member whose file holds a freshly imported schedule is placed by the
      default term start, whatever the schedule itself says. */
  lemma ImportedUsesDefaultStart(userName: string, ws: WeekMap, daysSince: string -> int,
                                 getDay: int, h: int, m: int)
    requires 0 <= getDay <= 6
    ensures UserRow(userName, Some(ImportedDocument(ws)), daysSince, getDay, h, m)
      == RowFor(userName, FindNextClass(ws, CalculateCurrentWeek(daysSince(DefaultStartDate)),
                                        CurrentDay(getDay), h, m))
  {
  }

  datatype Member = Member(userName: string, doc: Option<StoredData>)

  /** The rendered list for the group's users that have a schedule file (the
      output of `UsersWithSchedule`): one row per member in order, or the
      single "no data" row when there is none. A member's `doc` is `None`
      only when its file disappeared between the filter and the read. */
  function RenderList(members: seq<Member>, daysSince: string -> int,
                      getDay: int, h: int, m: int): (r: seq<Row>)
    requires 0 <= getDay <= 6
    ensures |members| == 0 ==> r == [NoData] && r[0].UserName() == NoDataUserName
    ensures |members| > 0 ==> |r| == |members|
    ensures |members| > 0 ==> forall i :: 0 <= i < |members| ==>
      (r[i] == UserRow(members[i].userName, members[i].doc, daysSince, getDay, h, m))
  {
    if |members| == 0 then [NoData]
    else
      seq(|members|, i requires 0 <= i < |members| =>
        UserRow(members[i].userName, members[i].doc, daysSince, getDay, h, m))
  }

  /** The "no data" row appears exactly when no member is left after the
      filter. */
  lemma NoDataOnlyForEmptyGroup(members: seq<Member>, daysSince: string -> int,
                                getDay: int, h: int, m: int)
    requires 0 <= getDay <= 6
    ensures NoData in RenderList(members, daysSince, getDay, h, m) <==> |members| == 0
  {
  }

  /** `getAllUsersWithSchedule`: the ids of the group's user list whose
      schedule file exists, in list order. `userList` is `None` when the
      group has no list file. */
  function UsersWithSchedule(userList: Option<seq<string>>, hasFile: string -> bool): (r: seq<string>)
    ensures forall x :: x in r <==> userList.Some? && x in userList.value && hasFile(x)
    ensures userList.Some? ==> |r| <= |userList.value|
    ensures userList.Some? && (forall i :: 0 <= i < |userList.value| ==> hasFile(userList.value[i]))
      ==> r == userList.value
  {
    match userList
    case None => []
    case Some(ids) => Filter(ids, hasFile)
  }

  /** The elements of `xs` satisfying `p`, in order. */
  function Filter(xs: seq<string>, p: string -> bool): (r: seq<string>)
    ensures forall x :: x in r <==> x in xs && p(x)
    ensures |r| <= |xs|
    ensures (forall i :: 0 <= i < |xs| ==> p(xs[i])) ==> r == xs
    ensures |xs| == 1 ==> r == (if p(xs[0]) then xs else [])
  {
    if xs == [] then []
    else
      var rest := Filter(xs[1..], p);
      assert xs == [xs[0]] + xs[1..];
      if p(xs[0]) then [xs[0]] + rest else rest
  }

  /** Filtering a list with `x` in front decides `x` first. */
  lemma FilterCons(x: string, xs: seq<string>, p: string -> bool)
    ensures Filter([x] + xs, p) == if p(x) then [x] + Filter(xs, p) else Filter(xs, p)
  {
    assert ([x] + xs)[0] == x && ([x] + xs)[1..] == xs;
  }

  /** Filtering a concatenation filters each part and keeps them in that
      order; with the one-element case of `Filter` this fixes both the order
      and the multiplicity of the kept ids. */
  lemma {:induction false} FilterAppend(xs: seq<string>, ys: seq<string>, p: string -> bool)
    ensures Filter(xs + ys, p) == Filter(xs, p) + Filter(ys, p)
  {
    if xs == [] {
      assert xs + ys == ys;
    } else {
      var x, xt := xs[0], xs[1..];
      assert xs == [x] + xt;
      assert xs + ys == [x] + (xt + ys);
      FilterCons(x, xt + ys, p);
      FilterCons(x, xt, p);
      FilterAppend(xt, ys, p);
      var a, b := Filter(xt, p), Filter(ys, p);
      assert [x] + (a + b) == ([x] + a) + b;
    }
  }

  /** `getMultipleNextClassRenderData`: filter the group's list down to the
      users with a schedule file, then render one row per remaining user.
      `nameOf` stands for the member lookup and `docOf` for reading a user's
      file (`None` when it is absent at the time of the read). */
  function GroupBoard(userList: Option<seq<string>>, hasFile: string -> bool,
                      nameOf: string -> string, docOf: string -> Option<StoredData>,
                      daysSince: string -> int, getDay: int, h: int, m: int): (r: seq<Row>)
    requires 0 <= getDay <= 6
    ensures var ids := UsersWithSchedule(userList, hasFile);
      (r == [NoData] <==> |ids| == 0)
      && (|ids| > 0 ==> |r| == |ids| && forall i :: 0 <= i < |ids| ==>
            r[i] == UserRow(nameOf(ids[i]), docOf(ids[i]), daysSince, getDay, h, m))
  {
    var ids := UsersWithSchedule(userList, hasFile);
    var members := seq(|ids|, i requires 0 <= i < |ids| => Member(nameOf(ids[i]), docOf(ids[i])));
    var r := RenderList(members, daysSince, getDay, h, m);
    assert |ids| > 0 ==> r[0] != NoData;
    r
  }

  /** When every listed user with a file can also be read, the board shows
      "no data" exactly when no listed user has a file, and no row says
      "not imported". */
  lemma NoDataIffNoScheduleFile(userList: Option<seq<string>>, hasFile: string -> bool,
                                nameOf: string -> string, docOf: string -> Option<StoredData>,
                                daysSince: string -> int, getDay: int, h: int, m: int)
    requires 0 <= getDay <= 6
    requires forall x :: hasFile(x) ==> docOf(x).Some?
    ensures var r := GroupBoard(userList, hasFile, nameOf, docOf, daysSince, getDay, h, m);
      (r == [NoData] <==> userList.None? || forall x :: x in userList.value ==> !hasFile(x))
      && forall i :: 0 <= i < |r| ==> !r[i].NotImported?
  {
    var ids := UsersWithSchedule(userList, hasFile);
    if |ids| > 0 {
      assert ids[0] in ids;
    }
    var r := GroupBoard(userList, hasFile, nameOf, docOf, daysSince, getDay, h, m);
    forall i | 0 <= i < |r| ensures !r[i].NotImported? {
      if |ids| > 0 {
        assert ids[i] in ids;
      }
    }
  }
}

=== FILE: normalizer.dfy ===
/** The import step: already-parsed timetable, settings, course catalogue and
    schedule entries become the sparse weekly schedule
    week -> day -> period node -> occurrences. */
module Normalizer {
  import opened Common
  import opened Schedule

  /** One row of the timetable: period `node` runs from `startTime` to `endTime`. */
  datatype TimeSlot = TimeSlot(node: int, startTime: string, endTime: string)

  /** The settings record. A falsy `maxWeek` (absent, null, 0) is `None` or `Some(0)`. */
  datatype Settings = Settings(maxWeek: Option<int>, startDate: Option<string>)

  /** One row of the course catalogue; an empty name is falsy like a missing one. */
  datatype Course = Course(id: int, courseName: string)

  /** One raw schedule entry. `room` and `recurrence` (the odd/even-week type)
      are read from the export but never copied into the schedule. */
  datatype ScheduleEntry = ScheduleEntry(
    id: int, startNode: int, step: int, day: int,
    startWeek: int, endWeek: int, teacher: string, room: string, recurrence: int)

  /** The four segments of the export, already parsed. */
  datatype ImportData = ImportData(
    timeTable: seq<TimeSlot>, settings: Settings, courses: seq<Course>, schedule: seq<ScheduleEntry>)

  /** One expanded period of an entry. */
  datatype ClassTime = ClassTime(node: int, startTime: string, endTime: string)

  /** An entry after the course and period lookups (the intermediate course list). */
  datatype CourseEntry = CourseEntry(
    courseId: int, courseName: string, day: int, startWeek: int, endWeek: int,
    teacher: string, classTimes: seq<ClassTime>)

  /** The import stops with a TypeError when it reaches a week it never created. */
  datatype ImportError = WeekUndefined(week: int)

  const DefaultMaxWeek: int := 18
  const UnknownCourse: string := "未知课程"
  const UnknownTime: string := "未知"

  // ---------------------------------------------------------------------------
  // Lookups: a dictionary filled in list order, so the last record with a key wins

  /** Position of the last element of `xs` whose key is `k`. */
  function LastIndex<T>(xs: seq<T>, key: T -> int, k: int): (r: Option<nat>)
    ensures r.None? ==> forall j :: 0 <= j < |xs| ==> key(xs[j]) != k
    ensures r.Some? ==> (r.value < |xs| && key(xs[r.value]) == k
                         && forall j :: r.value < j < |xs| ==> key(xs[j]) != k)
  {
    if xs == [] then None
    else if key(xs[|xs| - 1]) == k then Some(|xs| - 1)
    else LastIndex(xs[..|xs| - 1], key, k)
  }

  /** `for (const x of xs) dict[key(x)] = x`. */
  function IndexBy<T>(xs: seq<T>, key: T -> int): (m: map<int, T>)
    ensures forall k :: k in m <==> LastIndex(xs, key, k).Some?
    ensures forall k :: k in m ==> m[k] == xs[LastIndex(xs, key, k).value]
  {
    if xs == [] then map[]
    else
      var prefix := xs[..|xs| - 1];
      var m := IndexBy(prefix, key);
      assert forall k :: k != key(xs[|xs| - 1]) ==> LastIndex(xs, key, k) == LastIndex(prefix, key, k);
      m[key(xs[|xs| - 1]) := xs[|xs| - 1]]
  }

  function CourseKey(c: Course): int {
    c.id
  }

  function SlotKey(t: TimeSlot): int {
    t.node
  }

  function CourseDict(courses: seq<Course>): map<int, Course> {
    IndexBy(courses, CourseKey)
  }

  function NodeTimeDict(timeTable: seq<TimeSlot>): map<int, TimeSlot> {
    IndexBy(timeTable, SlotKey)
  }

  /** `settings.maxWeek || 18`. */
  function EffectiveMaxWeek(settings: Settings): (r: int)
    ensures r != 0
    ensures r == DefaultMaxWeek <==> settings.maxWeek.None? || settings.maxWeek.value in {0, DefaultMaxWeek}
    ensures settings.maxWeek.Some? && settings.maxWeek.value != 0 ==> r == settings.maxWeek.value
  {
    match settings.maxWeek
    case Some(v) => if v != 0 then v else DefaultMaxWeek
    case None => DefaultMaxWeek
  }

  /** The `step` consecutive periods from `startNode`, each with the timetable's
      times or the "未知" placeholder. */
  function ExpandClassTimes(item: ScheduleEntry, nodeTimes: map<int, TimeSlot>): (r: seq<ClassTime>)
    ensures |r| == (if item.step > 0 then item.step else 0)
    ensures forall i :: 0 <= i < |r| ==> r[i].node == item.startNode + i
  {
    var count := if item.step > 0 then item.step else 0;
    seq(count, i requires 0 <= i < count =>
      var node := item.startNode + i;
      if node in nodeTimes then ClassTime(node, nodeTimes[node].startTime, nodeTimes[node].endTime)
      else ClassTime(node, UnknownTime, UnknownTime))
  }

  function MakeEntry(item: ScheduleEntry, courses: map<int, Course>, nodeTimes: map<int, TimeSlot>): CourseEntry {
    var name := if item.id in courses && courses[item.id].courseName != "" then courses[item.id].courseName else UnknownCourse;
    CourseEntry(item.id, name, item.day, item.startWeek, item.endWeek, item.teacher,
      ExpandClassTimes(item, nodeTimes))
  }

  function Entries(data: ImportData): (es: seq<CourseEntry>)
    ensures |es| == |data.schedule|
  {
    var courses := CourseDict(data.courses);
    var nodeTimes := NodeTimeDict(data.timeTable);
    seq(|data.schedule|, i requires 0 <= i < |data.schedule| => MakeEntry(data.schedule[i], courses, nodeTimes))
  }

  // ---------------------------------------------------------------------------
  // Filing entries into the weekly map

  function OccurrenceOf(e: CourseEntry, t: ClassTime, week: int): Occurrence {
    Occurrence(e.courseId, e.courseName, e.teacher, t.startTime, t.endTime, week, e.startWeek, e.endWeek)
  }

  /** Appends one occurrence per class time to its node's list. */
  function AddTimes(pm: PeriodMap, e: CourseEntry, week: int, times: seq<ClassTime>): PeriodMap
    decreases |times|
  {
    if times == [] then pm
    else
      var n := times[0].node;
      var cell := if n in pm then pm[n] else [];
      AddTimes(pm[n := cell + [OccurrenceOf(e, times[0], week)]], e, week, times[1..])
  }

  /** One pass of the inner week loop. */
  function AddWeek(ws: WeekMap, e: CourseEntry, week: int, maxWeek: int): Result<WeekMap, ImportError> {
    if week > maxWeek then Success(ws)
    else if e.day > 7 then Success(ws)
    else if week !in ws then Failure(WeekUndefined(week))
    else
      var dm := ws[week];
      var pm := if e.day in dm then dm[e.day] else map[];
      Success(ws[week := dm[e.day := AddTimes(pm, e, week, e.classTimes)]])
  }

  /** The week loop `for (week = from; week <= e.endWeek; week++)`. */
  function AddWeeks(ws: WeekMap, e: CourseEntry, from: int, maxWeek: int): Result<WeekMap, ImportError>
    decreases e.endWeek + 1 - from
  {
    if from > e.endWeek then Success(ws)
    else
      match AddWeek(ws, e, from, maxWeek)
      case Failure(err) => Failure(err)
      case Success(ws1) => AddWeeks(ws1, e, from + 1, maxWeek)
  }

  /** The entry loop. */
  function AddEntries(ws: WeekMap, es: seq<CourseEntry>, maxWeek: int): Result<WeekMap, ImportError>
    decreases |es|
  {
    if es == [] then Success(ws)
    else
      match AddWeeks(ws, es[0], es[0].startWeek, maxWeek)
      case Failure(err) => Failure(err)
      case Success(ws1) => AddEntries(ws1, es[1..], maxWeek)
  }

  /** `for (week = 1; week <= maxWeek; week++) weeklySchedule[week] = {}`. */
  function InitialWeeks(maxWeek: int): (ws: WeekMap)
    ensures forall w :: w in ws <==> 1 <= w <= maxWeek
    ensures forall w :: w in ws ==> ws[w] == map[]
    decreases maxWeek
  {
    if maxWeek < 1 then map[] else InitialWeeks(maxWeek - 1)[maxWeek := map[]]
  }

  /** Drops the weeks whose day map stayed empty. */
  function Prune(ws: WeekMap): WeekMap {
    map w | w in ws && |ws[w]| > 0 :: ws[w]
  }

  /** `generateCourseScheduleFromData` on already-parsed segments. */
  function GenerateCourseSchedule(data: ImportData): (r: Result<WeekMap, ImportError>)
    ensures r.Success? ==> forall w :: w in r.value ==> |r.value[w]| > 0
    ensures data.schedule == [] ==> r == Success(map[])
  {
    var maxWeek := EffectiveMaxWeek(data.settings);
    match AddEntries(InitialWeeks(maxWeek), Entries(data), maxWeek)
    case Failure(err) => Failure(err)
    case Success(ws) => Success(Prune(ws))
  }
}

=== FILE: normalizer_facts.dfy ===
/** What the import produces, stated against an independent reference: every
    schedule entry contributes, in list order, one occurrence per expanded
    period for each week it covers, and nothing else is filed. */
module NormalizerFacts {
  import opened Common
  import opened Schedule
  import opened Normalizer

  // ---------------------------------------------------------------------------
  // Reference definitions over the raw records

  function MaxWeekOf(data: ImportData): int {
    EffectiveMaxWeek(data.settings)
  }

  /** The entry's week loop reaches a week the import never created (a week
      below 1), which throws and aborts the whole import. */
  predicate Crashes(item: ScheduleEntry, maxWeek: int) {
    item.day <= 7 && item.startWeek <= item.endWeek && item.startWeek <= maxWeek && item.startWeek < 1
  }

  /** The entry files its periods under week `w`. */
  predicate Covers(item: ScheduleEntry, maxWeek: int, w: int) {
    item.day <= 7 && item.startWeek <= w <= item.endWeek && w <= maxWeek
  }

  /** The course name the last catalogue row with this id gives, or the placeholder. */
  function CourseNameRef(courses: seq<Course>, id: int): string {
    match LastIndex(courses, CourseKey, id)
    case None => UnknownCourse
    case Some(i) => if courses[i].courseName != "" then courses[i].courseName else UnknownCourse
  }

  /** The times the last timetable row for this node gives, or the placeholders. */
  function SlotRef(timeTable: seq<TimeSlot>, node: int): (string, string) {
    match LastIndex(timeTable, SlotKey, node)
    case None => (UnknownTime, UnknownTime)
    case Some(i) => (timeTable[i].startTime, timeTable[i].endTime)
  }

  /** The occurrence an entry files under week `w`, period `n`. */
  function Expected(data: ImportData, item: ScheduleEntry, w: int, n: int): Occurrence {
    var slot := SlotRef(data.timeTable, n);
    Occurrence(item.id, CourseNameRef(data.courses, item.id), item.teacher, slot.0, slot.1,
      w, item.startWeek, item.endWeek)
  }

  /** What one entry files under (w, d, n). */
  function ItemOccs(data: ImportData, item: ScheduleEntry, w: int, d: int, n: int): seq<Occurrence> {
    if Covers(item, MaxWeekOf(data), w) && d == item.day && item.startNode <= n < item.startNode + item.step
    then [Expected(data, item, w, n)] else []
  }

  /** What the entries `items` file under (w, d, n), in entry order. */
  function Contribution(data: ImportData, items: seq<ScheduleEntry>, w: int, d: int, n: int): seq<Occurrence> {
    if items == [] then [] else ItemOccs(data, items[0], w, d, n) + Contribution(data, items[1..], w, d, n)
  }

  // ---------------------------------------------------------------------------
  // Facts about the fold, entry by entry

  ghost predicate Shaped(ws: WeekMap, maxWeek: int) {
    forall w :: w in ws <==> 1 <= w <= maxWeek
  }

  function PeriodCell(pm: PeriodMap, n: int): seq<Occurrence> {
    if n in pm then pm[n] else []
  }

  /** The occurrences for the class times with node `n`, in order. */
  function OccsFor(e: CourseEntry, week: int, times: seq<ClassTime>, n: int): seq<Occurrence> {
    if times == [] then []
    else (if times[0].node == n then [OccurrenceOf(e, times[0], week)] else []) + OccsFor(e, week, times[1..], n)
  }

  /** The week loop from `from` on files something under (w, d). */
  predicate Hits(e: CourseEntry, from: int, maxWeek: int, w: int, d: int) {
    d == e.day && d <= 7 && from <= w <= e.endWeek && w <= maxWeek
  }

  predicate WeeksCrash(e: CourseEntry, from: int, maxWeek: int) {
    e.day <= 7 && from <= e.endWeek && from <= maxWeek && from < 1
  }

  function EntryOccs(e: CourseEntry, from: int, maxWeek: int, w: int, d: int, n: int): seq<Occurrence> {
    if Hits(e, from, maxWeek, w, d) then OccsFor(e, w, e.classTimes, n) else []
  }

  /** `ws'` is `ws` with the week loop from `from` applied. */
  ghost predicate WeeksFiled(ws: WeekMap, ws': WeekMap, e: CourseEntry, from: int, maxWeek: int) {
    && Shaped(ws', maxWeek)
    && ws'.Keys == ws.Keys
    && (forall w, d, n :: Cell(ws', w, d, n) == Cell(ws, w, d, n) + EntryOccs(e, from, maxWeek, w, d, n))
    && (forall w, d :: w in ws' ==> (d in ws'[w] <==> d in ws[w] || Hits(e, from, maxWeek, w, d)))
  }

  /** `ws1` is `ws` with the class times of `e` filed under (week, e.day). */
  ghost predicate WeekFiled(ws: WeekMap, ws1: WeekMap, e: CourseEntry, week: int) {
    && ws1.Keys == ws.Keys
    && (forall w, d, n :: Cell(ws1, w, d, n) ==
          Cell(ws, w, d, n) + (if w == week && d == e.day then OccsFor(e, week, e.classTimes, n) else []))
    && (forall w, d :: w in ws1 ==> (d in ws1[w] <==> d in ws[w] || (w == week && d == e.day)))
  }

  lemma {:induction false} AddTimesCell(pm: PeriodMap, e: CourseEntry, week: int, times: seq<ClassTime>, n: int)
    ensures PeriodCell(AddTimes(pm, e, week, times), n) == PeriodCell(pm, n) + OccsFor(e, week, times, n)
    decreases |times|
  {
    if times != [] {
      var k := times[0].node;
      var cell := if k in pm then pm[k] else [];
      var pm1 := pm[k := cell + [OccurrenceOf(e, times[0], week)]];
      AddTimesCell(pm1, e, week, times[1..], n);
    }
  }

  /** One pass of the week loop, on a week that exists. */
  lemma AddWeekStep(ws: WeekMap, e: CourseEntry, week: int, maxWeek: int)
    requires Shaped(ws, maxWeek)
    requires week <= maxWeek && e.day <= 7 && week in ws
    ensures AddWeek(ws, e, week, maxWeek).Success?
    ensures Shaped(AddWeek(ws, e, week, maxWeek).value, maxWeek)
    ensures WeekFiled(ws, AddWeek(ws, e, week, maxWeek).value, e, week)
  {
    var dm := ws[week];
    var pm := if e.day in dm then dm[e.day] else map[];
    var ws1 := AddWeek(ws, e, week, maxWeek).value;
    forall w, d, n
      ensures Cell(ws1, w, d, n) == Cell(ws, w, d, n)
        + (if w == week && d == e.day then OccsFor(e, week, e.classTimes, n) else [])
    {
      if w == week && d == e.day {
        AddTimesCell(pm, e, week, e.classTimes, n);
      }
    }
  }

  lemma {:induction false} AddWeeksSpec(ws: WeekMap, e: CourseEntry, from: int, maxWeek: int)
    requires Shaped(ws, maxWeek)
    ensures AddWeeks(ws, e, from, maxWeek).Failure? <==> WeeksCrash(e, from, maxWeek)
    ensures AddWeeks(ws, e, from, maxWeek).Failure? ==> AddWeeks(ws, e, from, maxWeek).error == WeekUndefined(from)
    ensures AddWeeks(ws, e, from, maxWeek).Success? ==> WeeksFiled(ws, AddWeeks(ws, e, from, maxWeek).value, e, from, maxWeek)
    decreases e.endWeek + 1 - from
  {
    if from > e.endWeek {
      assert WeeksFiled(ws, ws, e, from, maxWeek);
    } else if from > maxWeek || e.day > 7 {
      AddWeeksSpec(ws, e, from + 1, maxWeek);
      AddWeeksSkip(ws, e, from, maxWeek);
    } else if from !in ws {
      assert from < 1;
    } else {
      AddWeekStep(ws, e, from, maxWeek);
      var ws1 := AddWeek(ws, e, from, maxWeek).value;
      AddWeeksSpec(ws1, e, from + 1, maxWeek);
      AddWeeksFile(ws, ws1, e, from, maxWeek);
    }
  }

  /** A week the loop skips changes nothing. */
  lemma AddWeeksSkip(ws: WeekMap, e: CourseEntry, from: int, maxWeek: int)
    requires Shaped(ws, maxWeek)
    requires from <= e.endWeek && (from > maxWeek || e.day > 7)
    requires var r := AddWeeks(ws, e, from + 1, maxWeek);
      (r.Failure? <==> WeeksCrash(e, from + 1, maxWeek))
      && (r.Success? ==> WeeksFiled(ws, r.value, e, from + 1, maxWeek))
    ensures AddWeeks(ws, e, from, maxWeek) == AddWeeks(ws, e, from + 1, maxWeek)
    ensures !WeeksCrash(e, from, maxWeek) && AddWeeks(ws, e, from, maxWeek).Success?
    ensures WeeksFiled(ws, AddWeeks(ws, e, from, maxWeek).value, e, from, maxWeek)
  {
    var r := AddWeeks(ws, e, from + 1, maxWeek);
    assert !WeeksCrash(e, from + 1, maxWeek);
    var ws2 := r.value;
    forall w, d ensures Hits(e, from, maxWeek, w, d) == Hits(e, from + 1, maxWeek, w, d) {}
    forall w, d, n ensures EntryOccs(e, from, maxWeek, w, d, n) == EntryOccs(e, from + 1, maxWeek, w, d, n) {}
  }

  /** A week the loop files into, followed by the rest of the loop. */
  lemma AddWeeksFile(ws: WeekMap, ws1: WeekMap, e: CourseEntry, from: int, maxWeek: int)
    requires Shaped(ws, maxWeek)
    requires from <= e.endWeek && from <= maxWeek && e.day <= 7 && from in ws
    requires AddWeek(ws, e, from, maxWeek) == Success(ws1)
    requires Shaped(ws1, maxWeek) && WeekFiled(ws, ws1, e, from)
    requires var r := AddWeeks(ws1, e, from + 1, maxWeek);
      (r.Failure? <==> WeeksCrash(e, from + 1, maxWeek))
      && (r.Success? ==> WeeksFiled(ws1, r.value, e, from + 1, maxWeek))
    ensures AddWeeks(ws, e, from, maxWeek) == AddWeeks(ws1, e, from + 1, maxWeek)
    ensures !WeeksCrash(e, from, maxWeek) && AddWeeks(ws, e, from, maxWeek).Success?
    ensures WeeksFiled(ws, AddWeeks(ws, e, from, maxWeek).value, e, from, maxWeek)
  {
    var r := AddWeeks(ws1, e, from + 1, maxWeek);
    assert !WeeksCrash(e, from + 1, maxWeek);
    var ws2 := r.value;
    forall w, d, n ensures Cell(ws2, w, d, n) == Cell(ws, w, d, n) + EntryOccs(e, from, maxWeek, w, d, n) {
      assert Cell(ws2, w, d, n) == Cell(ws1, w, d, n) + EntryOccs(e, from + 1, maxWeek, w, d, n);
    }
    forall w, d | w in ws2 ensures d in ws2[w] <==> d in ws[w] || Hits(e, from, maxWeek, w, d) {
      assert d in ws2[w] <==> d in ws1[w] || Hits(e, from + 1, maxWeek, w, d);
    }
  }

  // ---------------------------------------------------------------------------
  // The entry loop

  predicate EntryCrash(e: CourseEntry, maxWeek: int) {
    WeeksCrash(e, e.startWeek, maxWeek)
  }

  function AllOccs(es: seq<CourseEntry>, maxWeek: int, w: int, d: int, n: int): seq<Occurrence> {
    if es == [] then []
    else EntryOccs(es[0], es[0].startWeek, maxWeek, w, d, n) + AllOccs(es[1..], maxWeek, w, d, n)
  }

  ghost predicate AnyHits(es: seq<CourseEntry>, maxWeek: int, w: int, d: int) {
    exists i :: 0 <= i < |es| && Hits(es[i], es[i].startWeek, maxWeek, w, d)
  }

  ghost predicate AnyCrash(es: seq<CourseEntry>, maxWeek: int) {
    exists i :: 0 <= i < |es| && EntryCrash(es[i], maxWeek)
  }

  /** `err` is the error the first crashing entry raises. */
  ghost predicate FirstCrash(es: seq<CourseEntry>, maxWeek: int, err: ImportError) {
    exists i :: 0 <= i < |es| && EntryCrash(es[i], maxWeek) && err == WeekUndefined(es[i].startWeek)
      && forall j :: 0 <= j < i ==> !EntryCrash(es[j], maxWeek)
  }

  ghost predicate EntriesFiled(ws: WeekMap, ws': WeekMap, es: seq<CourseEntry>, maxWeek: int) {
    && Shaped(ws', maxWeek)
    && ws'.Keys == ws.Keys
    && (forall w, d, n :: Cell(ws', w, d, n) == Cell(ws, w, d, n) + AllOccs(es, maxWeek, w, d, n))
    && (forall w, d :: w in ws' ==> (d in ws'[w] <==> d in ws[w] || AnyHits(es, maxWeek, w, d)))
  }

  lemma {:induction false} AddEntriesSpec(ws: WeekMap, es: seq<CourseEntry>, maxWeek: int)
    requires Shaped(ws, maxWeek)
    ensures AddEntries(ws, es, maxWeek).Failure? <==> AnyCrash(es, maxWeek)
    ensures AddEntries(ws, es, maxWeek).Failure? ==> FirstCrash(es, maxWeek, AddEntries(ws, es, maxWeek).error)
    ensures AddEntries(ws, es, maxWeek).Success? ==> EntriesFiled(ws, AddEntries(ws, es, maxWeek).value, es, maxWeek)
    decreases |es|
  {
    if es == [] {
      assert EntriesFiled(ws, ws, es, maxWeek);
    } else {
      AddWeeksSpec(ws, es[0], es[0].startWeek, maxWeek);
      AnyCrashCons(es, maxWeek);
      match AddWeeks(ws, es[0], es[0].startWeek, maxWeek)
      case Failure(err) =>
        assert FirstCrash(es, maxWeek, err);
      case Success(ws1) =>
        AddEntriesSpec(ws1, es[1..], maxWeek);
        assert AddEntries(ws, es, maxWeek) == AddEntries(ws1, es[1..], maxWeek);
        match AddEntries(ws1, es[1..], maxWeek)
        case Failure(err) =>
          FirstCrashCons(es, maxWeek, err);
        case Success(ws2) =>
          EntriesFiledCons(ws, ws1, ws2, es, maxWeek);
    }
  }

  lemma AnyCrashCons(es: seq<CourseEntry>, maxWeek: int)
    requires es != []
    ensures AnyCrash(es, maxWeek) <==> EntryCrash(es[0], maxWeek) || AnyCrash(es[1..], maxWeek)
  {
    if AnyCrash(es[1..], maxWeek) {
      var i :| 0 <= i < |es[1..]| && EntryCrash(es[1..][i], maxWeek);
      assert EntryCrash(es[i + 1], maxWeek);
    }
    if AnyCrash(es, maxWeek) && !EntryCrash(es[0], maxWeek) {
      var i :| 0 <= i < |es| && EntryCrash(es[i], maxWeek);
      assert EntryCrash(es[1..][i - 1], maxWeek);
    }
  }

  lemma FirstCrashCons(es: seq<CourseEntry>, maxWeek: int, err: ImportError)
    requires es != [] && !EntryCrash(es[0], maxWeek) && FirstCrash(es[1..], maxWeek, err)
    ensures FirstCrash(es, maxWeek, err)
  {
    var rest := es[1..];
    var i :| 0 <= i < |rest| && EntryCrash(rest[i], maxWeek) && err == WeekUndefined(rest[i].startWeek)
      && forall j :: 0 <= j < i ==> !EntryCrash(rest[j], maxWeek);
    assert es[i + 1] == rest[i];
    forall j | 0 <= j < i + 1 ensures !EntryCrash(es[j], maxWeek) {
      if j > 0 {
        assert es[j] == rest[j - 1];
      }
    }
  }

  lemma AnyHitsCons(es: seq<CourseEntry>, maxWeek: int, w: int, d: int)
    requires es != []
    ensures AnyHits(es, maxWeek, w, d) <==> Hits(es[0], es[0].startWeek, maxWeek, w, d) || AnyHits(es[1..], maxWeek, w, d)
  {
    var rest := es[1..];
    if AnyHits(rest, maxWeek, w, d) {
      var i :| 0 <= i < |rest| && Hits(rest[i], rest[i].startWeek, maxWeek, w, d);
      assert Hits(es[i + 1], es[i + 1].startWeek, maxWeek, w, d);
    }
    if AnyHits(es, maxWeek, w, d) && !Hits(es[0], es[0].startWeek, maxWeek, w, d) {
      var i :| 0 <= i < |es| && Hits(es[i], es[i].startWeek, maxWeek, w, d);
      assert Hits(rest[i - 1], rest[i - 1].startWeek, maxWeek, w, d);
    }
  }

  lemma EntriesFiledCons(ws: WeekMap, ws1: WeekMap, ws2: WeekMap, es: seq<CourseEntry>, maxWeek: int)
    requires es != []
    requires WeeksFiled(ws, ws1, es[0], es[0].startWeek, maxWeek)
    requires EntriesFiled(ws1, ws2, es[1..], maxWeek)
    ensures EntriesFiled(ws, ws2, es, maxWeek)
  {
    forall w, d, n ensures Cell(ws2, w, d, n) == Cell(ws, w, d, n) + AllOccs(es, maxWeek, w, d, n) {
      CellCons(ws, ws1, ws2, es, maxWeek, w, d, n);
    }
    forall w, d | w in ws2 ensures d in ws2[w] <==> d in ws[w] || AnyHits(es, maxWeek, w, d) {
      AnyHitsCons(es, maxWeek, w, d);
    }
  }

  lemma CellCons(ws: WeekMap, ws1: WeekMap, ws2: WeekMap, es: seq<CourseEntry>, maxWeek: int, w: int, d: int, n: int)
    requires es != []
    requires Cell(ws1, w, d, n) == Cell(ws, w, d, n) + EntryOccs(es[0], es[0].startWeek, maxWeek, w, d, n)
    requires Cell(ws2, w, d, n) == Cell(ws1, w, d, n) + AllOccs(es[1..], maxWeek, w, d, n)
    ensures Cell(ws2, w, d, n) == Cell(ws, w, d, n) + AllOccs(es, maxWeek, w, d, n)
  {
    var b, c := EntryOccs(es[0], es[0].startWeek, maxWeek, w, d, n), AllOccs(es[1..], maxWeek, w, d, n);
    assert AllOccs(es, maxWeek, w, d, n) == b + c;
    AppendAssoc(Cell(ws, w, d, n), b, c);
  }

  lemma AppendAssoc(a: seq<Occurrence>, b: seq<Occurrence>, c: seq<Occurrence>)
    ensures (a + b) + c == a + (b + c)
  {
  }

  // ---------------------------------------------------------------------------
  // From the intermediate course list back to the raw entries

  lemma {:induction false} OccsForConsecutive(e: CourseEntry, week: int, times: seq<ClassTime>, base: int, n: int)
    requires forall i :: 0 <= i < |times| ==> times[i].node == base + i
    ensures OccsFor(e, week, times, n) ==
      (if base <= n < base + |times| then [OccurrenceOf(e, times[n - base], week)] else [])
    decreases |times|
  {
    if times != [] {
      OccsForConsecutive(e, week, times[1..], base + 1, n);
      if base + 1 <= n < base + |times| {
        assert times[1..][n - (base + 1)] == times[n - base];
      }
    }
  }

  /** The course name lookup through the dictionary agrees with the reference. */
  lemma CourseNameMatches(courses: seq<Course>, id: int)
    ensures (if id in CourseDict(courses) && CourseDict(courses)[id].courseName != ""
             then CourseDict(courses)[id].courseName else UnknownCourse) == CourseNameRef(courses, id)
  {
  }

  /** The period lookup through the dictionary agrees with the reference. */
  lemma SlotMatches(data: ImportData, item: ScheduleEntry, k: nat)
    requires k < |ExpandClassTimes(item, NodeTimeDict(data.timeTable))|
    ensures var t := ExpandClassTimes(item, NodeTimeDict(data.timeTable))[k];
      t.node == item.startNode + k && (t.startTime, t.endTime) == SlotRef(data.timeTable, item.startNode + k)
  {
  }

  /** An entry after the lookups files, under every (w, d, n), exactly what
      the reference says its raw record files. */
  lemma EntryOccsMatch(data: ImportData, item: ScheduleEntry, w: int, d: int, n: int)
    ensures var e := MakeEntry(item, CourseDict(data.courses), NodeTimeDict(data.timeTable));
      EntryOccs(e, e.startWeek, MaxWeekOf(data), w, d, n) == ItemOccs(data, item, w, d, n)
  {
    var mw := MaxWeekOf(data);
    var times := ExpandClassTimes(item, NodeTimeDict(data.timeTable));
    var e := MakeEntry(item, CourseDict(data.courses), NodeTimeDict(data.timeTable));
    CourseNameMatches(data.courses, item.id);
    assert e == CourseEntry(item.id, CourseNameRef(data.courses, item.id), item.day, item.startWeek,
      item.endWeek, item.teacher, times);
    if Covers(item, mw, w) && d == item.day {
      assert EntryOccs(e, e.startWeek, mw, w, d, n) == OccsFor(e, w, times, n);
      OccsForConsecutive(e, w, times, item.startNode, n);
      if item.startNode <= n < item.startNode + item.step {
        var k := n - item.startNode;
        SlotMatches(data, item, k);
        assert OccurrenceOf(e, times[k], w) == Expected(data, item, w, n);
      }
    }
  }

  lemma {:induction false} AllOccsMatches(data: ImportData, items: seq<ScheduleEntry>, es: seq<CourseEntry>, w: int, d: int, n: int)
    requires |es| == |items|
    requires forall i :: 0 <= i < |es| ==>
      es[i] == MakeEntry(items[i], CourseDict(data.courses), NodeTimeDict(data.timeTable))
    ensures AllOccs(es, MaxWeekOf(data), w, d, n) == Contribution(data, items, w, d, n)
    decreases |es|
  {
    if es != [] {
      EntryOccsMatch(data, items[0], w, d, n);
      AllOccsMatches(data, items[1..], es[1..], w, d, n);
    }
  }

  // ---------------------------------------------------------------------------
  // The whole import

  ghost predicate AnyItemCrash(data: ImportData) {
    exists i :: 0 <= i < |data.schedule| && Crashes(data.schedule[i], MaxWeekOf(data))
  }

  /** `err` is what the first crashing raw entry raises: its start week. */
  ghost predicate FirstItemCrash(data: ImportData, err: ImportError) {
    exists i :: 0 <= i < |data.schedule| && Crashes(data.schedule[i], MaxWeekOf(data))
      && err == WeekUndefined(data.schedule[i].startWeek)
      && forall j :: 0 <= j < i ==> !Crashes(data.schedule[j], MaxWeekOf(data))
  }

  ghost predicate WeekCovered(data: ImportData, w: int) {
    exists i :: 0 <= i < |data.schedule| && Covers(data.schedule[i], MaxWeekOf(data), w)
  }

  ghost predicate DayCovered(data: ImportData, w: int, d: int) {
    exists i :: 0 <= i < |data.schedule| && Covers(data.schedule[i], MaxWeekOf(data), w) && data.schedule[i].day == d
  }

  /** `out` is the schedule the reference says the import of `data` builds:
      the cell contents, which weeks are kept and which days each week has. */
  ghost predicate Imports(data: ImportData, out: WeekMap) {
    && (forall w, d, n :: Cell(out, w, d, n) == Contribution(data, data.schedule, w, d, n))
    && (forall w :: w in out <==> WeekCovered(data, w))
    && (forall w, d :: w in out ==> (d in out[w] <==> DayCovered(data, w, d)))
  }

  lemma EntriesCrashMatch(data: ImportData)
    ensures AnyCrash(Entries(data), MaxWeekOf(data)) <==> AnyItemCrash(data)
    ensures forall err :: FirstCrash(Entries(data), MaxWeekOf(data), err) ==> FirstItemCrash(data, err)
  {
    var es, mw := Entries(data), MaxWeekOf(data);
    assert forall i :: 0 <= i < |es| ==> (EntryCrash(es[i], mw) <==> Crashes(data.schedule[i], mw));
    forall err | FirstCrash(es, mw, err) ensures FirstItemCrash(data, err) {
      var i :| 0 <= i < |es| && EntryCrash(es[i], mw) && err == WeekUndefined(es[i].startWeek)
        && forall j :: 0 <= j < i ==> !EntryCrash(es[j], mw);
      assert Crashes(data.schedule[i], mw);
    }
  }

  lemma EntriesHitsMatch(data: ImportData, w: int, d: int)
    ensures AnyHits(Entries(data), MaxWeekOf(data), w, d) <==> DayCovered(data, w, d)
  {
    var es, mw := Entries(data), MaxWeekOf(data);
    assert forall i :: 0 <= i < |es| ==>
      (Hits(es[i], es[i].startWeek, mw, w, d) <==> Covers(data.schedule[i], mw, w) && data.schedule[i].day == d);
  }

  /** When no entry crashes, every covered week is one the import created. */
  lemma CoveredWeekExists(data: ImportData, w: int)
    requires !AnyItemCrash(data) && WeekCovered(data, w)
    ensures 1 <= w <= MaxWeekOf(data)
  {
    var i :| 0 <= i < |data.schedule| && Covers(data.schedule[i], MaxWeekOf(data), w);
    assert !Crashes(data.schedule[i], MaxWeekOf(data));
  }

  /** The fold over the import's entries succeeded with `ws`. */
  ghost predicate Folded(data: ImportData, ws: WeekMap) {
    AddEntries(InitialWeeks(MaxWeekOf(data)), Entries(data), MaxWeekOf(data)) == Success(ws)
  }

  /** Every cell of the successful fold holds the reference contribution. */
  lemma PrunedCells(data: ImportData, ws: WeekMap)
    requires Folded(data, ws)
    ensures forall w, d, n :: Cell(ws, w, d, n) == Contribution(data, data.schedule, w, d, n)
  {
    var mw := MaxWeekOf(data);
    var es := Entries(data);
    var init := InitialWeeks(mw);
    AddEntriesSpec(init, es, mw);
    forall w, d, n ensures Cell(ws, w, d, n) == Contribution(data, data.schedule, w, d, n) {
      assert Cell(init, w, d, n) == [];
      AllOccsMatches(data, data.schedule, es, w, d, n);
      assert Cell(ws, w, d, n) == AllOccs(es, mw, w, d, n);
    }
  }

  /** A week of the successful fold has exactly the covered days. */
  lemma PrunedDays(data: ImportData, ws: WeekMap)
    requires Folded(data, ws)
    ensures forall w, d :: w in ws ==> (d in ws[w] <==> DayCovered(data, w, d))
  {
    AddEntriesSpec(InitialWeeks(MaxWeekOf(data)), Entries(data), MaxWeekOf(data));
    forall w, d | w in ws ensures d in ws[w] <==> DayCovered(data, w, d) {
      EntriesHitsMatch(data, w, d);
    }
  }

  /** A week survives the pruning exactly when some entry covers it. */
  lemma PrunedWeeks(data: ImportData, ws: WeekMap)
    requires Folded(data, ws)
    ensures forall w :: w in Prune(ws) <==> WeekCovered(data, w)
  {
    var mw := MaxWeekOf(data);
    AddEntriesSpec(InitialWeeks(mw), Entries(data), mw);
    EntriesCrashMatch(data);
    PrunedDays(data, ws);
    var out := Prune(ws);
    forall w ensures w in out <==> WeekCovered(data, w) {
      if w in out {
        assert ws[w].Keys != {};
        HasElement(ws[w].Keys);
        var d :| d in ws[w];
        assert DayCovered(data, w, d);
      }
      if WeekCovered(data, w) {
        var i :| 0 <= i < |data.schedule| && Covers(data.schedule[i], mw, w);
        CoveredWeekExists(data, w);
        assert DayCovered(data, w, data.schedule[i].day);
        assert data.schedule[i].day in ws[w];
      }
    }
  }

  /** Dropping the empty weeks changes no cell and no kept week's days. */
  lemma PruneKeepsCells(ws: WeekMap)
    ensures forall w, d, n :: Cell(Prune(ws), w, d, n) == Cell(ws, w, d, n)
    ensures forall w :: w in Prune(ws) ==> Prune(ws)[w] == ws[w]
  {
  }

  lemma {:induction false} GenerateSpec(data: ImportData)
    ensures GenerateCourseSchedule(data).Failure? <==> AnyItemCrash(data)
    ensures GenerateCourseSchedule(data).Failure? ==> FirstItemCrash(data, GenerateCourseSchedule(data).error)
    ensures GenerateCourseSchedule(data).Success? ==> Imports(data, GenerateCourseSchedule(data).value)
  {
    var mw := MaxWeekOf(data);
    var es := Entries(data);
    var init := InitialWeeks(mw);
    AddEntriesSpec(init, es, mw);
    EntriesCrashMatch(data);
    match AddEntries(init, es, mw)
    case Failure(err) =>
    case Success(ws) =>
      var out := Prune(ws);
      assert GenerateCourseSchedule(data) == Success(out);
      PrunedCells(data, ws);
      PrunedDays(data, ws);
      PrunedWeeks(data, ws);
      PruneKeepsCells(ws);
  }

  // ---------------------------------------------------------------------------
  // Consequences

  lemma {:induction false} InContribution(data: ImportData, items: seq<ScheduleEntry>, w: int, d: int, n: int, o: Occurrence)
    requires o in Contribution(data, items, w, d, n)
    ensures exists i :: (0 <= i < |items| && Covers(items[i], MaxWeekOf(data), w) && items[i].day == d
                         && o == Expected(data, items[i], w, n))
    decreases |items|
  {
    if o in ItemOccs(data, items[0], w, d, n) {
      assert Covers(items[0], MaxWeekOf(data), w) && items[0].day == d;
    } else {
      InContribution(data, items[1..], w, d, n, o);
      var i :| 0 <= i < |items[1..]| && Covers(items[1..][i], MaxWeekOf(data), w) && items[1..][i].day == d
        && o == Expected(data, items[1..][i], w, n);
      assert items[i + 1] == items[1..][i];
    }
  }

  /** The sparse shape: every kept week lies in 1..maxWeek and has at least one
      day, and every day lies at or below 7. */
  lemma ImportedShape(data: ImportData)
    requires GenerateCourseSchedule(data).Success?
    ensures var out := GenerateCourseSchedule(data).value;
      forall w :: w in out ==> 1 <= w <= MaxWeekOf(data) && |out[w]| > 0 && forall d :: d in out[w] ==> d <= 7
  {
    GenerateSpec(data);
    var out := GenerateCourseSchedule(data).value;
    forall w | w in out ensures 1 <= w <= MaxWeekOf(data) && |out[w]| > 0 && forall d :: d in out[w] ==> d <= 7 {
      CoveredWeekExists(data, w);
      var i :| 0 <= i < |data.schedule| && Covers(data.schedule[i], MaxWeekOf(data), w);
      assert DayCovered(data, w, data.schedule[i].day);
      assert data.schedule[i].day in out[w];
    }
  }

  /** Every occurrence filed under week `w` carries `week == w` and a week range
      that contains `w`, and `w` is within 1..maxWeek. */
  lemma OccurrenceWeekFields(data: ImportData, w: int, d: int, n: int, o: Occurrence)
    requires GenerateCourseSchedule(data).Success?
    requires o in Cell(GenerateCourseSchedule(data).value, w, d, n)
    ensures o.week == w && o.startWeek <= w <= o.endWeek
    ensures 1 <= w <= MaxWeekOf(data) && d <= 7
  {
    GenerateSpec(data);
    InContribution(data, data.schedule, w, d, n, o);
    CoveredWeekExists(data, w);
  }

  /** With a single entry, a cell of its day holds exactly that entry's
      contribution. */
  lemma SingleEntryCell(data: ImportData, item: ScheduleEntry, w: int, n: int)
    requires data.schedule == [item]
    ensures Contribution(data, data.schedule, w, item.day, n) == ItemOccs(data, item, w, item.day, n)
  {
    assert data.schedule[1..] == [];
  }

  /** An entry that covers week `w` files one occurrence under each of the
      nodes startNode .. startNode+step-1 of its day, and none elsewhere. */
  lemma StepExpansion(data: ImportData, item: ScheduleEntry, w: int)
    requires data.schedule == [item]
    requires !Crashes(item, MaxWeekOf(data)) && Covers(item, MaxWeekOf(data), w)
    ensures GenerateCourseSchedule(data).Success?
    ensures var out := GenerateCourseSchedule(data).value;
      && w in out && item.day in out[w]
      && forall n :: Cell(out, w, item.day, n) ==
           (if item.startNode <= n < item.startNode + item.step then [Expected(data, item, w, n)] else [])
  {
    assert data.schedule[0] == item;
    assert GenerateCourseSchedule(data).Success? by {
      GenerateSpec(data);
    }
    var out := GenerateCourseSchedule(data).value;
    assert w in out && item.day in out[w] by {
      GenerateSpec(data);
      assert WeekCovered(data, w) && DayCovered(data, w, item.day);
    }
    forall n ensures Cell(out, w, item.day, n) ==
      (if item.startNode <= n < item.startNode + item.step then [Expected(data, item, w, n)] else [])
    {
      assert Cell(out, w, item.day, n) == Contribution(data, data.schedule, w, item.day, n) by {
        GenerateSpec(data);
      }
      SingleEntryCell(data, item, w, n);
    }
  }

  /** A course id missing from the catalogue and a node missing from the
      timetable give placeholder name and times; the import still succeeds. */
  lemma MissingLookupsArePlaceholders(data: ImportData, item: ScheduleEntry, w: int, n: int)
    requires data.schedule == [item]
    requires !Crashes(item, MaxWeekOf(data)) && Covers(item, MaxWeekOf(data), w)
    requires item.startNode <= n < item.startNode + item.step
    requires forall i :: 0 <= i < |data.courses| ==> data.courses[i].id != item.id
    requires forall i :: 0 <= i < |data.timeTable| ==> data.timeTable[i].node != n
    ensures GenerateCourseSchedule(data).Success?
    ensures var cell := Cell(GenerateCourseSchedule(data).value, w, item.day, n);
      |cell| == 1 && cell[0].courseName == "未知课程" && cell[0].startTime == "未知" && cell[0].endTime == "未知"
  {
    StepExpansion(data, item, w);
    assert LastIndex(data.courses, CourseKey, item.id).None?;
    assert LastIndex(data.timeTable, SlotKey, n).None?;
  }

  /** `maxWeek` falls back to 18 when the setting is absent or 0, and then no
      week beyond 18 is kept. */
  lemma DefaultMaxWeekApplies(data: ImportData)
    requires data.settings.maxWeek.None? || data.settings.maxWeek == Some(0)
    ensures MaxWeekOf(data) == 18
    ensures GenerateCourseSchedule(data).Success? ==>
      forall w :: w in GenerateCourseSchedule(data).value ==> 1 <= w <= 18
  {
    if GenerateCourseSchedule(data).Success? {
      ImportedShape(data);
    }
  }

  /** With the default bound, an entry running through week 20 is cut at 18. */
  lemma EndWeekClampedToMaxWeek(data: ImportData, k: nat)
    requires data.settings.maxWeek.None?
    requires k < |data.schedule|
    requires data.schedule[k].startWeek == 1 && data.schedule[k].endWeek == 20 && data.schedule[k].day <= 7
    requires GenerateCourseSchedule(data).Success?
    ensures 18 in GenerateCourseSchedule(data).value
    ensures 19 !in GenerateCourseSchedule(data).value && 20 !in GenerateCourseSchedule(data).value
  {
    GenerateSpec(data);
    DefaultMaxWeekApplies(data);
    assert Covers(data.schedule[k], MaxWeekOf(data), 18);
  }

  /** The week loop of an entry whose day is above 7 changes nothing. */
  lemma {:induction false} AddWeeksIgnoresLateDay(ws: WeekMap, e: CourseEntry, from: int, maxWeek: int)
    requires e.day > 7
    ensures AddWeeks(ws, e, from, maxWeek) == Success(ws)
    decreases e.endWeek + 1 - from
  {
    if from <= e.endWeek {
      AddWeeksIgnoresLateDay(ws, e, from + 1, maxWeek);
    }
  }

  lemma {:induction false} AddEntriesAppend(ws: WeekMap, a: seq<CourseEntry>, b: seq<CourseEntry>, maxWeek: int)
    ensures AddEntries(ws, a + b, maxWeek) ==
      match AddEntries(ws, a, maxWeek)
      case Failure(err) => Failure(err)
      case Success(ws1) => AddEntries(ws1, b, maxWeek)
    decreases |a|
  {
    if a == [] {
      assert a + b == b;
    } else {
      assert (a + b)[0] == a[0] && (a + b)[1..] == a[1..] + b;
      match AddWeeks(ws, a[0], a[0].startWeek, maxWeek)
      case Failure(err) =>
      case Success(ws1) => AddEntriesAppend(ws1, a[1..], b, maxWeek);
    }
  }

  lemma AddEntriesSkipsLateDay(ws: WeekMap, a: seq<CourseEntry>, e: CourseEntry, b: seq<CourseEntry>, maxWeek: int)
    requires e.day > 7
    ensures AddEntries(ws, a + [e] + b, maxWeek) == AddEntries(ws, a + b, maxWeek)
  {
    AddEntriesAppend(ws, a, [e] + b, maxWeek);
    AddEntriesAppend(ws, a, b, maxWeek);
    assert a + [e] + b == a + ([e] + b);
    match AddEntries(ws, a, maxWeek)
    case Failure(err) =>
    case Success(ws1) =>
      AddWeeksIgnoresLateDay(ws1, e, e.startWeek, maxWeek);
      assert ([e] + b)[0] == e && ([e] + b)[1..] == b;
  }

  lemma EntriesInsert(data: ImportData, k: nat, item: ScheduleEntry)
    requires k <= |data.schedule|
    ensures var es := Entries(data);
      Entries(data.(schedule := data.schedule[..k] + [item] + data.schedule[k..]))
        == es[..k] + [MakeEntry(item, CourseDict(data.courses), NodeTimeDict(data.timeTable))] + es[k..]
  {
  }

  /** A schedule entry whose day is above 7 contributes nothing at all: adding
      it anywhere in the entry list leaves the import result unchanged. */
  lemma LateDayContributesNothing(data: ImportData, k: nat, item: ScheduleEntry)
    requires item.day > 7 && k <= |data.schedule|
    ensures GenerateCourseSchedule(data.(schedule := data.schedule[..k] + [item] + data.schedule[k..]))
         == GenerateCourseSchedule(data)
  {
    var data' := data.(schedule := data.schedule[..k] + [item] + data.schedule[k..]);
    var es := Entries(data);
    EntriesInsert(data, k, item);
    var e := MakeEntry(item, CourseDict(data.courses), NodeTimeDict(data.timeTable));
    var mw := MaxWeekOf(data);
    assert data'.settings == data.settings;
    assert MaxWeekOf(data') == mw;
    AddEntriesSkipsLateDay(InitialWeeks(mw), es[..k], e, es[k..], mw);
    assert es[..k] + es[k..] == es;
    var res := AddEntries(InitialWeeks(mw), es, mw);
    assert AddEntries(InitialWeeks(mw), Entries(data'), mw) == res;
    assert GenerateCourseSchedule(data') == (if res.Failure? then Failure(res.error) else Success(Prune(res.value)));
    assert GenerateCourseSchedule(data) == (if res.Failure? then Failure(res.error) else Success(Prune(res.value)));
  }
}

=== FILE: ordered_map.dfy ===
/** A JavaScript `Map` with string keys: entries kept in insertion order,
    `set` on a present key updating the value in place, `delete` removing the
    entry and closing the gap. */
module OrderedMap {
  import opened Common

  type Entries<V> = seq<(string, V)>

  /** The keys in insertion order. */
  function Keys<V>(m: Entries<V>): (ks: seq<string>)
    ensures |ks| == |m|
    ensures forall i :: 0 <= i < |m| ==> ks[i] == m[i].0
  {
    if m == [] then [] else [m[0].0] + Keys(m[1..])
  }

  /** No key occurs twice. */
  predicate Distinct<V>(m: Entries<V>) {
    forall i, j :: 0 <= i < j < |m| ==> m[i].0 != m[j].0
  }

  /** `m.get(k)`. */
  function Get<V>(m: Entries<V>, k: string): (r: Option<V>)
    ensures r.None? <==> k !in Keys(m)
    ensures r.Some? ==> (k, r.value) in m
  {
    if m == [] then None
    else if m[0].0 == k then Some(m[0].1)
    else Get(m[1..], k)
  }

  /** `m.set(k, v)`: a present key keeps its position, a new one goes last. */
  function Set<V>(m: Entries<V>, k: string, v: V): (r: Entries<V>)
    ensures Keys(r) == if k in Keys(m) then Keys(m) else Keys(m) + [k]
  {
    if m == [] then [(k, v)]
    else if m[0].0 == k then [(k, v)] + m[1..]
    else
      var rest := Set(m[1..], k, v);
      var r := [m[0]] + rest;
      assert r[1..] == rest;
      assert Keys(r) == [m[0].0] + Keys(rest);
      assert Keys(m) == [m[0].0] + Keys(m[1..]);
      r
  }

  /** After `m.set(k, v)` the key reads back `v` and every other key reads as
      before. */
  lemma {:induction false} SetGet<V>(m: Entries<V>, k: string, v: V)
    ensures Get(Set(m, k, v), k) == Some(v)
    ensures forall k' :: k' != k ==> Get(Set(m, k, v), k') == Get(m, k')
  {
    if m != [] && m[0].0 == k {
      assert Set(m, k, v)[1..] == m[1..];
    } else if m != [] {
      SetGet(m[1..], k, v);
      var rest := Set(m[1..], k, v);
      assert Set(m, k, v)[1..] == rest;
    }
  }

  /** A map built by `set` never holds a key twice. */
  lemma SetKeepsDistinct<V>(m: Entries<V>, k: string, v: V)
    ensures Distinct(m) ==> Distinct(Set(m, k, v))
  {
  }

  /** The head key of a duplicate-free map does not recur in its tail. */
  lemma DistinctTail<V>(m: Entries<V>)
    requires Distinct(m) && m != []
    ensures m[0].0 !in Keys(m[1..]) && Distinct(m[1..])
  {
  }

  /** Putting a fresh key in front of a duplicate-free map keeps it
      duplicate-free. */
  lemma DistinctCons<V>(x: (string, V), rest: Entries<V>)
    requires x.0 !in Keys(rest) && Distinct(rest)
    ensures Distinct([x] + rest)
  {
  }

  /** `m.delete(k)`: every other entry stays, in the same order. */
  function Delete<V>(m: Entries<V>, k: string): (r: Entries<V>)
    ensures k !in Keys(r)
    ensures forall k' :: k' != k ==> Get(r, k') == Get(m, k')
    ensures forall x :: x in Keys(r) <==> x in Keys(m) && x != k
    ensures |r| <= |m|
    ensures k !in Keys(m) ==> r == m
  {
    if m == [] then []
    else
      var rest := Delete(m[1..], k);
      assert Keys(m) == [m[0].0] + Keys(m[1..]);
      if m[0].0 == k then rest
      else
        var r := [m[0]] + rest;
        assert r[1..] == rest;
        assert Keys(r) == [m[0].0] + Keys(rest);
        r
  }

  /** Deleting from a map with `x` in front decides `x` first. */
  lemma DeleteCons<V>(x: (string, V), rest: Entries<V>, k: string)
    ensures Delete([x] + rest, k) == if x.0 == k then Delete(rest, k) else [x] + Delete(rest, k)
  {
    assert ([x] + rest)[0] == x && ([x] + rest)[1..] == rest;
  }

  /** Deleting from a concatenation deletes from each part. */
  lemma {:induction false} DeleteAppend<V>(a: Entries<V>, b: Entries<V>, k: string)
    ensures Delete(a + b, k) == Delete(a, k) + Delete(b, k)
  {
    if a == [] {
      assert a + b == b;
    } else {
      var x, at := a[0], a[1..];
      assert (a + b)[0] == x && (a + b)[1..] == at + b;
      DeleteAppend(at, b, k);
    }
  }

  /** In a duplicate-free map, deleting the key at position `i` closes the
      gap: the entries before and after it keep their order. */
  lemma DeleteAt<V>(m: Entries<V>, k: string, i: nat)
    requires Distinct(m) && i < |m| && m[i].0 == k
    ensures Delete(m, k) == m[..i] + m[i+1..]
  {
    var pre, post := m[..i], m[i+1..];
    assert m == pre + ([m[i]] + post);
    assert k !in Keys(pre) by {
      forall j | 0 <= j < |pre| ensures Keys(pre)[j] != k {
        assert pre[j] == m[j];
      }
    }
    assert k !in Keys(post) by {
      forall j | 0 <= j < |post| ensures Keys(post)[j] != k {
        assert post[j] == m[i + 1 + j];
      }
    }
    DeleteAppend(pre, [m[i]] + post, k);
    DeleteCons(m[i], post, k);
  }

  /** `DeleteAt` for every position holding the key. */
  lemma DeleteClosesGap<V>(m: Entries<V>, k: string)
    ensures Distinct(m) ==> forall i :: 0 <= i < |m| && m[i].0 == k ==> Delete(m, k) == m[..i] + m[i+1..]
  {
    if Distinct(m) {
      forall i | 0 <= i < |m| && m[i].0 == k ensures Delete(m, k) == m[..i] + m[i+1..] {
        DeleteAt(m, k, i);
      }
    }
  }

  /** Deleting from a duplicate-free map keeps it duplicate-free and removes
      exactly one entry when the key was present. */
  lemma {:induction false} DeleteKeepsDistinct<V>(m: Entries<V>, k: string)
    ensures Distinct(m) ==> Distinct(Delete(m, k))
    ensures Distinct(m) ==> |Delete(m, k)| == |m| - (if k in Keys(m) then 1 else 0)
  {
    if Distinct(m) && m != [] {
      DistinctTail(m);
      DeleteKeepsDistinct(m[1..], k);
      assert Keys(m) == [m[0].0] + Keys(m[1..]);
      var rest := Delete(m[1..], k);
      if m[0].0 != k {
        var r := [m[0]] + rest;
        assert Delete(m, k) == r;
        assert m[0].0 !in Keys(rest);
        DistinctCons(m[0], rest);
      } else {
        assert k !in Keys(m[1..]);
      }
    }
  }
}

=== FILE: schedule.dfy ===
/** The canonical weekly schedule: week number -> day number -> period node
    -> the occurrences held in that period, plus the period-ordered view of
    one day that both "today's schedule" and the next-class query read. */
module Schedule {

  /** One class occurrence as the import stores it. Times are kept as the
      text the timetable holds ("08:00", or "未知" when the node is unknown). */
  datatype Occurrence = Occurrence(
    courseId: int,
    courseName: string,
    teacher: string,
    startTime: string,
    endTime: string,
    week: int,
    startWeek: int,
    endWeek: int)

  type PeriodMap = map<int, seq<Occurrence>>
  type DayMap = map<int, PeriodMap>
  type WeekMap = map<int, DayMap>

  /** The list under `ws[w][d][n]`, or the empty list when any level is absent. */
  function Cell(ws: WeekMap, w: int, d: int, n: int): seq<Occurrence> {
    if w in ws && d in ws[w] && n in ws[w][d] then ws[w][d][n] else []
  }

  /** An occurrence tagged with the period node it was filed under. */
  datatype Tagged = Tagged(node: int, occ: Occurrence)

  /** The least element of a non-empty set of integers. */
  function MinOf(s: set<int>): (m: int)
    requires s != {}
    ensures m in s && forall x :: x in s ==> m <= x
  {
    MinExists(s);
    var m :| m in s && forall x :: x in s ==> m <= x;
    m
  }

  lemma HasElement(s: set<int>)
    requires s != {}
    ensures exists y :: y in s
  {
    if forall y :: y !in s {
      assert false;
    }
  }

  lemma MinExists(s: set<int>)
    requires s != {}
    ensures exists m :: m in s && forall x :: x in s ==> m <= x
    decreases |s|
  {
    HasElement(s);
    var y :| y in s;
    if s - {y} != {} {
      MinExists(s - {y});
      var m :| m in s - {y} && forall x :: x in s - {y} ==> m <= x;
      var least := if y < m then y else m;
      forall x | x in s ensures least <= x {
        if x != y {
          assert x in s - {y};
        }
      }
    } else {
      assert s == {y};
    }
  }

  predicate StrictlyIncreasing(ks: seq<int>) {
    forall i, j :: 0 <= i < j < |ks| ==> ks[i] < ks[j]
  }

  /** The keys of a period map in ascending numeric order, as
      `Object.keys(periods).sort((a, b) => parseInt(a) - parseInt(b))` lists them. */
  function SortedKeys(s: set<int>): (ks: seq<int>)
    ensures StrictlyIncreasing(ks)
    ensures forall x :: x in s <==> x in ks
    ensures |ks| == |s|
    decreases |s|
  {
    if s == {} then []
    else
      var m := MinOf(s);
      var rest := SortedKeys(s - {m});
      assert forall i :: 0 <= i < |rest| ==> m < rest[i] by {
        forall i | 0 <= i < |rest| ensures m < rest[i] {
          assert rest[i] in s - {m};
        }
      }
      [m] + rest
  }

  /** The occurrences of one period, tagged with its node. */
  function Tag(n: int, os: seq<Occurrence>): (r: seq<Tagged>)
    ensures |r| == |os|
    ensures forall i :: 0 <= i < |r| ==> r[i] == Tagged(n, os[i])
  {
    seq(|os|, i requires 0 <= i < |os| => Tagged(n, os[i]))
  }

  /** The periods `ks` of a day, concatenated in the order given. */
  function FlattenKeys(pm: PeriodMap, ks: seq<int>): (r: seq<Tagged>)
    requires forall i :: 0 <= i < |ks| ==> ks[i] in pm
    ensures forall i :: 0 <= i < |r| ==> r[i].node in ks && r[i].node in pm
  {
    if ks == [] then []
    else
      var rest := FlattenKeys(pm, ks[1..]);
      assert forall i :: 0 <= i < |rest| ==> rest[i].node in ks;
      Tag(ks[0], pm[ks[0]]) + rest
  }

  /** The occurrences of `r` filed under node `n`, in the order `r` holds them. */
  function OccurrencesAt(r: seq<Tagged>, n: int): seq<Occurrence> {
    if r == [] then []
    else (if r[0].node == n then [r[0].occ] else []) + OccurrencesAt(r[1..], n)
  }

  predicate NodeOrdered(r: seq<Tagged>) {
    forall i, j :: 0 <= i < j < |r| ==> r[i].node <= r[j].node
  }

  /** One day's classes, every period's list in turn, periods in ascending
      node order. */
  function FlattenDay(pm: PeriodMap): (r: seq<Tagged>)
    ensures NodeOrdered(r)
    ensures forall i :: 0 <= i < |r| ==> r[i].node in pm
    ensures forall n :: OccurrencesAt(r, n) == (if n in pm then pm[n] else [])
  {
    var ks := SortedKeys(pm.Keys);
    var r := FlattenKeys(pm, ks);
    FlattenKeysOrdered(pm, ks);
    forall n ensures OccurrencesAt(r, n) == (if n in pm then pm[n] else []) {
      FlattenKeysContents(pm, ks, n);
    }
    r
  }

  lemma {:induction false} OccurrencesAtAppend(a: seq<Tagged>, b: seq<Tagged>, n: int)
    ensures OccurrencesAt(a + b, n) == OccurrencesAt(a, n) + OccurrencesAt(b, n)
  {
    if a != [] {
      var ab := a + b;
      assert ab != [] && ab[0] == a[0];
      assert ab[1..] == a[1..] + b;
      OccurrencesAtAppend(a[1..], b, n);
      var h := if a[0].node == n then [a[0].occ] else [];
      assert OccurrencesAt(ab, n) == h + OccurrencesAt(a[1..] + b, n);
      assert OccurrencesAt(a, n) == h + OccurrencesAt(a[1..], n);
    } else {
      assert a + b == b;
    }
  }

  lemma {:induction false} OccurrencesAtTag(k: int, os: seq<Occurrence>, n: int)
    ensures OccurrencesAt(Tag(k, os), n) == (if k == n then os else [])
  {
    if os != [] {
      assert Tag(k, os)[1..] == Tag(k, os[1..]);
      OccurrencesAtTag(k, os[1..], n);
      if k == n {
        assert os == [os[0]] + os[1..];
      }
    }
  }

  lemma {:induction false} FlattenKeysContents(pm: PeriodMap, ks: seq<int>, n: int)
    requires forall i :: 0 <= i < |ks| ==> ks[i] in pm
    requires StrictlyIncreasing(ks)
    ensures OccurrencesAt(FlattenKeys(pm, ks), n) == (if n in ks then pm[n] else [])
  {
    if ks != [] {
      var rest := FlattenKeys(pm, ks[1..]);
      OccurrencesAtAppend(Tag(ks[0], pm[ks[0]]), rest, n);
      OccurrencesAtTag(ks[0], pm[ks[0]], n);
      FlattenKeysContents(pm, ks[1..], n);
      if n == ks[0] {
        assert n !in ks[1..];
      }
    }
  }

  lemma {:induction false} FlattenKeysOrdered(pm: PeriodMap, ks: seq<int>)
    requires forall i :: 0 <= i < |ks| ==> ks[i] in pm
    requires StrictlyIncreasing(ks)
    ensures NodeOrdered(FlattenKeys(pm, ks))
  {
    if ks != [] {
      var head := Tag(ks[0], pm[ks[0]]);
      var rest := FlattenKeys(pm, ks[1..]);
      FlattenKeysOrdered(pm, ks[1..]);
      var r := head + rest;
      forall i, j | 0 <= i < j < |r| ensures r[i].node <= r[j].node {
        if j >= |head| {
          assert r[j] == rest[j - |head|];
          assert r[j].node in ks[1..];
          if i < |head| {
            assert r[i].node == ks[0];
          } else {
            assert r[i] == rest[i - |head|];
          }
        }
      }
    }
  }

  /** Every entry of a listing is among the occurrences filed under its own node. */
  lemma {:induction false} OccurrencesAtMember(r: seq<Tagged>, i: nat)
    requires i < |r|
    ensures r[i].occ in OccurrencesAt(r, r[i].node)
  {
    if i > 0 {
      OccurrencesAtMember(r[1..], i - 1);
      assert r[1..][i - 1] == r[i];
    }
  }

  /** When every entry of a listing sits on `node`, the occurrences at `node`
      are the whole listing. */
  lemma {:induction false} SingleNode(ts: seq<Tagged>, node: int)
    requires forall i :: 0 <= i < |ts| ==> ts[i].node == node
    ensures |OccurrencesAt(ts, node)| == |ts|
    ensures OccurrencesAt(ts, node) == seq(|ts|, i requires 0 <= i < |ts| => ts[i].occ)
  {
    if ts != [] {
      SingleNode(ts[1..], node);
    }
  }

  /** A day with one period holding one class flattens to that class alone. */
  lemma FlattenSingle(node: int, o: Occurrence)
    ensures FlattenDay(map[node := [o]]) == [Tagged(node, o)]
  {
    var ts := FlattenDay(map[node := [o]]);
    assert OccurrencesAt(ts, node) == [o];
    SingleNode(ts, node);
  }
}

=== FILE: text.dfy ===
/** Text helpers shared by the time utilities and the renderers: decimal digits,
    JavaScript's `Number(...)` on decimal text, and `String.prototype.split`
    on a single separator character. */
module Text {
  import opened Common

  predicate IsDigit(c: char) {
    '0' <= c <= '9'
  }

  predicate AllDigits(s: string) {
    forall i :: 0 <= i < |s| ==> IsDigit(s[i])
  }

  function DigitValue(c: char): (d: nat)
    requires IsDigit(c)
    ensures d < 10
  {
    (c as int) - ('0' as int)
  }

  function DigitChar(d: nat): (c: char)
    requires d < 10
    ensures IsDigit(c) && DigitValue(c) == d
  {
    (('0' as int) + d) as char
  }

  /** Value of a string of decimal digits, read left to right. */
  function DigitsValue(s: string): nat
    requires AllDigits(s)
  {
    if |s| == 0 then 0
    else DigitsValue(s[..|s| - 1]) * 10 + DigitValue(s[|s| - 1])
  }

  /** Shortest decimal spelling of a natural number. */
  function Decimal(n: nat): (s: string)
    ensures |s| >= 1 && AllDigits(s)
  {
    if n < 10 then [DigitChar(n)] else Decimal(n / 10) + [DigitChar(n % 10)]
  }

  lemma {:induction false} DecimalRoundTrip(n: nat)
    ensures DigitsValue(Decimal(n)) == n
  {
    var s := Decimal(n);
    if n < 10 {
      assert s[..|s| - 1] == [];
    } else {
      DecimalRoundTrip(n / 10);
      assert s[..|s| - 1] == Decimal(n / 10);
    }
  }

  /** A leading zero does not change the value of a digit string. */
  lemma {:induction false} LeadingZero(s: string)
    requires AllDigits(s)
    ensures AllDigits("0" + s) && DigitsValue("0" + s) == DigitsValue(s)
  {
    var t := "0" + s;
    assert AllDigits(t);
    if |s| == 0 {
      assert t[..|t| - 1] == [];
    } else {
      assert t[..|t| - 1] == "0" + s[..|s| - 1];
      LeadingZero(s[..|s| - 1]);
    }
  }

  /** Decimal spelling of any integer, with a leading '-' when negative
      (what `String(n)` prints for an integral number). */
  function IntToString(n: int): (s: string)
    ensures |s| >= 1
    ensures n >= 0 <==> s[0] != '-'
  {
    if n >= 0 then Decimal(n) else "-" + Decimal(-n)
  }

  /** `Number(s)` for the decimal forms the schedule data uses: the empty string
      converts to 0, a run of ASCII digits to its value, anything else to NaN
      (`None`). */
  function JsNumber(s: string): (r: Option<int>)
    ensures r.Some? <==> AllDigits(s)
    ensures r.Some? ==> r.value >= 0
    ensures s == "" ==> r == Some(0)
  {
    if AllDigits(s) then Some(DigitsValue(s)) else None
  }

  /** Position of the first `c` in `s`, if any. */
  function IndexOf(s: string, c: char): (r: Option<nat>)
    ensures r.None? <==> c !in s
    ensures r.Some? ==> r.value < |s| && s[r.value] == c && c !in s[..r.value]
  {
    if |s| == 0 then None
    else if s[0] == c then Some(0)
    else match IndexOf(s[1..], c)
      case None => None
      case Some(i) => (assert s[..i + 1] == [s[0]] + s[1..][..i]; Some(i + 1))
  }

  /** `s.split(sep)` for a one-character separator: the maximal separator-free
      pieces, in order. */
  function Split(s: string, sep: char): (parts: seq<string>)
    ensures |parts| >= 1
    ensures forall i :: 0 <= i < |parts| ==> sep !in parts[i]
    decreases |s|
  {
    match IndexOf(s, sep)
    case None => [s]
    case Some(i) => [s[..i]] + Split(s[i + 1..], sep)
  }

  /** `parts.join(sep)`: the inverse of `Split`. */
  function Join(parts: seq<string>, sep: char): string
    requires |parts| >= 1
  {
    if |parts| == 1 then parts[0] else parts[0] + [sep] + Join(parts[1..], sep)
  }

  lemma {:induction false} JoinSplit(s: string, sep: char)
    ensures Join(Split(s, sep), sep) == s
    decreases |s|
  {
    match IndexOf(s, sep)
    case None =>
    case Some(i) =>
      var tail := s[i + 1..];
      var rest := Split(tail, sep);
      assert Split(s, sep) == [s[..i]] + rest;
      JoinSplit(tail, sep);
      assert Join(Split(s, sep), sep) == s[..i] + [sep] + Join(rest, sep);
      assert s == s[..i] + [sep] + tail;
  }

  lemma {:induction false} SplitJoin(parts: seq<string>, sep: char)
    requires |parts| >= 1
    requires forall i :: 0 <= i < |parts| ==> sep !in parts[i]
    ensures Split(Join(parts, sep), sep) == parts
  {
    var s := Join(parts, sep);
    if |parts| == 1 {
      assert sep !in parts[0];
    } else {
      var rest := Join(parts[1..], sep);
      var k := |parts[0]|;
      assert s == parts[0] + [sep] + rest;
      assert s[k] == sep;
      assert s[..k] == parts[0];
      assert sep !in parts[0];
      assert IndexOf(s, sep) == Some(k);
      assert s[k + 1..] == rest;
      SplitJoin(parts[1..], sep);
    }
  }
}

=== FILE: time_utils.dfy ===
/** Time-of-day helpers over "HH:MM" text: parsing, minute arithmetic, the
    half-open "is the class running" test, and the forward merge of
    back-to-back periods of the same course. */
module TimeUtils {
  import opened Common
  import opened Text
  import opened Schedule

  /** The result of `parseTimeString`: each part is the `Number(...)` of the
      matching ':'-separated field; `None` is NaN (a non-numeric field) or
      `undefined` (no second field at all). Both compare false with anything. */
  datatype Clock = Clock(hour: Option<int>, minute: Option<int>)

  /** Merging stops at a gap longer than this many minutes unless the caller
      passes another bound. */
  const DefaultMaxInterval: int := 30

  function ParseTimeString(s: string): (c: Clock)
    ensures ':' !in s ==> c.minute.None?
  {
    var fields := Split(s, ':');
    Clock(JsNumber(fields[0]), if |fields| >= 2 then JsNumber(fields[1]) else None)
  }

  /** Two-digit (or wider) zero-padded decimal, as timetables spell hours and minutes. */
  function Pad2(n: nat): (s: string)
    ensures AllDigits(s) && DigitsValue(s) == n
  {
    DecimalRoundTrip(n);
    if n < 10 then LeadingZero(Decimal(n)); "0" + Decimal(n) else Decimal(n)
  }

  /** The "HH:MM" text a timetable stores for a wall-clock time. */
  function FormatTime(h: nat, m: nat): string {
    Pad2(h) + ":" + Pad2(m)
  }

  /** Parsing a formatted time gives back its hour and minute. */
  lemma ParseFormatRoundTrip(h: nat, m: nat)
    ensures ParseTimeString(FormatTime(h, m)) == Clock(Some(h), Some(m))
  {
    var a, b := Pad2(h), Pad2(m);
    assert forall i :: 0 <= i < |a| ==> IsDigit(a[i]);
    assert forall i :: 0 <= i < |b| ==> IsDigit(b[i]);
    assert ':' !in a && ':' !in b;
    assert Join([a, b], ':') == FormatTime(h, m);
    SplitJoin([a, b], ':');
  }

  /** The placeholder time "未知" parses to NaN in both parts. */
  lemma UnknownTimeIsNaN()
    ensures ParseTimeString("未知") == Clock(None, None)
  {
    assert IndexOf("未知", ':') == None;
    assert !IsDigit("未知"[0]);
  }

  function TimeToMinutes(s: string): (r: Option<int>)
    ensures r.None? <==> ParseTimeString(s).hour.None? || ParseTimeString(s).minute.None?
    ensures WellFormed(ParseTimeString(s)) ==>
      r.value / 60 == ParseTimeString(s).hour.value && r.value % 60 == ParseTimeString(s).minute.value
  {
    var c := ParseTimeString(s);
    if c.hour.Some? && c.minute.Some? then Some(c.hour.value * 60 + c.minute.value) else None
  }

  function GetCurrentTimeMinutes(currentHour: int, currentMinute: int): (r: int)
    ensures 0 <= currentMinute < 60 ==> r / 60 == currentHour && r % 60 == currentMinute
  {
    currentHour * 60 + currentMinute
  }

  /** A formatted wall-clock time is worth as many minutes as the current
      time with the same hour and minute. */
  lemma TimeToMinutesOfFormat(h: nat, m: nat)
    ensures TimeToMinutes(FormatTime(h, m)) == Some(GetCurrentTimeMinutes(h, m))
  {
    ParseFormatRoundTrip(h, m);
  }

  /** Signed minutes from `t1` to `t2`; NaN when either time does not parse. */
  function CalculateTimeInterval(t1: string, t2: string): (r: Option<int>)
    ensures r.Some? <==> TimeToMinutes(t1).Some? && TimeToMinutes(t2).Some?
    ensures r.Some? ==> TimeToMinutes(t1).value + r.value == TimeToMinutes(t2).value
  {
    match (TimeToMinutes(t1), TimeToMinutes(t2))
    case (Some(a), Some(b)) => Some(b - a)
    case _ => None
  }

  /** Swapping the two times negates the interval. */
  lemma IntervalAntisymmetric(t1: string, t2: string)
    ensures CalculateTimeInterval(t1, t2).Some? == CalculateTimeInterval(t2, t1).Some?
    ensures CalculateTimeInterval(t1, t2).Some? ==>
      CalculateTimeInterval(t1, t2).value == -CalculateTimeInterval(t2, t1).value
  {
  }

  /** A parseable time is zero minutes from itself. */
  lemma IntervalSelf(t: string)
    ensures CalculateTimeInterval(t, t) == (if TimeToMinutes(t).Some? then Some(0) else None)
  {
  }

  /** `(h, m)` is at or after the clock time `c` (lexicographically, NaN-aware). */
  predicate AtOrAfter(h: int, m: int, c: Clock) {
    (c.hour.Some? && h > c.hour.value)
    || (c.hour.Some? && h == c.hour.value && c.minute.Some? && m >= c.minute.value)
  }

  /** `(h, m)` is strictly before the clock time `c` (lexicographically, NaN-aware). */
  predicate Before(h: int, m: int, c: Clock) {
    (c.hour.Some? && h < c.hour.value)
    || (c.hour.Some? && h == c.hour.value && c.minute.Some? && m < c.minute.value)
  }

  /** `isInClassTime`: a class whose start or end hour is NaN is never
      running. */
  predicate IsInClassTime(startTime: string, endTime: string, currentHour: int, currentMinute: int): (b: bool)
    ensures b ==> ParseTimeString(startTime).hour.Some? && ParseTimeString(endTime).hour.Some?
  {
    AtOrAfter(currentHour, currentMinute, ParseTimeString(startTime))
    && Before(currentHour, currentMinute, ParseTimeString(endTime))
  }

  /** A time whose minute field is a proper minute of the hour. */
  predicate WellFormed(c: Clock) {
    c.hour.Some? && c.minute.Some? && 0 <= c.minute.value < 60
  }

  lemma LexicographicIsNumeric(h: int, m: int, sh: int, sm: int)
    requires 0 <= m < 60 && 0 <= sm < 60
    ensures (h > sh || (h == sh && m >= sm)) <==> sh * 60 + sm <= h * 60 + m
  {
    if h > sh {
      assert h * 60 >= sh * 60 + 60;
    } else if h < sh {
      assert sh * 60 >= h * 60 + 60;
    }
  }

  /** With proper minutes everywhere, the lexicographic test is the half-open
      minute interval [start, end). */
  lemma IsInClassTimeMinutes(startTime: string, endTime: string, h: int, m: int)
    requires WellFormed(ParseTimeString(startTime)) && WellFormed(ParseTimeString(endTime))
    requires 0 <= m < 60
    ensures IsInClassTime(startTime, endTime, h, m) <==>
      TimeToMinutes(startTime).value <= GetCurrentTimeMinutes(h, m) < TimeToMinutes(endTime).value
  {
    var s, e := ParseTimeString(startTime), ParseTimeString(endTime);
    LexicographicIsNumeric(h, m, s.hour.value, s.minute.value);
    LexicographicIsNumeric(e.hour.value, e.minute.value, h, m);
  }

  /** The clock minute just before `h:m`: `h:(m-1)`, or `(h-1):59` on the hour. */
  function PrevMinute(h: int, m: int): (p: (int, int))
    requires 0 <= m < 60
    ensures 0 <= p.1 < 60
    ensures p.0 * 60 + p.1 == h * 60 + m - 1
  {
    if m > 0 then (h, m - 1) else (h - 1, 59)
  }

  /** A class is running at exactly its start, not in the minute before it
      (on the hour that is the previous hour's `:59`), and no longer at
      exactly its end. */
  lemma IsInClassTimeHalfOpen(sh: nat, sm: nat, eh: nat, em: nat)
    requires sm < 60 && em < 60
    requires sh * 60 + sm < eh * 60 + em
    ensures IsInClassTime(FormatTime(sh, sm), FormatTime(eh, em), sh, sm)
    ensures !IsInClassTime(FormatTime(sh, sm), FormatTime(eh, em), eh, em)
    ensures !IsInClassTime(FormatTime(sh, sm), FormatTime(eh, em),
                           PrevMinute(sh, sm).0, PrevMinute(sh, sm).1)
  {
    ParseFormatRoundTrip(sh, sm);
    ParseFormatRoundTrip(eh, em);
    var p := PrevMinute(sh, sm);
    IsInClassTimeMinutes(FormatTime(sh, sm), FormatTime(eh, em), sh, sm);
    IsInClassTimeMinutes(FormatTime(sh, sm), FormatTime(eh, em), eh, em);
    IsInClassTimeMinutes(FormatTime(sh, sm), FormatTime(eh, em), p.0, p.1);
  }

  /** What `findConsecutiveClasses` hands back. */
  datatype Consecutive = Consecutive(finalClass: Occurrence, finalEndTime: string, startTime: string)

  /** The gap from `endTime` to `startTime` is at most `maxInterval`; a NaN gap
      never is. Negative gaps (overlaps) are. */
  predicate GapOk(endTime: string, startTime: string, maxInterval: int) {
    match CalculateTimeInterval(endTime, startTime)
    case Some(g) => g <= maxInterval
    case None => false
  }

  /** Class `j` continues the block that starts at `i`: same course name as the
      start class and a short enough gap after class `j - 1`. */
  predicate Joins(classes: seq<Occurrence>, i: nat, j: nat, maxInterval: int)
    requires i < j < |classes|
  {
    classes[j].courseName == classes[i].courseName
    && GapOk(classes[j - 1].endTime, classes[j].startTime, maxInterval)
  }

  /** Classes `i+1 .. k` all continue the block starting at `i`. */
  predicate MergedThrough(classes: seq<Occurrence>, i: nat, k: nat, maxInterval: int) {
    i <= k < |classes| && forall j :: i < j <= k ==> Joins(classes, i, j, maxInterval)
  }

  /** The block starting at `i` ends at `k`: everything up to `k` joins, and
      `k` is the last class or the next one does not join. */
  predicate BlockEnd(classes: seq<Occurrence>, i: nat, k: nat, maxInterval: int) {
    MergedThrough(classes, i, k, maxInterval)
    && (k + 1 == |classes| || !Joins(classes, i, k + 1, maxInterval))
  }

  /** At most one index ends the block, so the merge result is determined. */
  lemma BlockEndUnique(classes: seq<Occurrence>, i: nat, k1: nat, k2: nat, maxInterval: int)
    requires BlockEnd(classes, i, k1, maxInterval) && BlockEnd(classes, i, k2, maxInterval)
    ensures k1 == k2
  {
    if k1 < k2 {
      assert false;
    } else if k2 < k1 {
      assert false;
    }
  }

  /** Scans forward from `startIndex` over classes of the same course whose gap
      to the running end time is at most `maxInterval` (30 minutes when the
      argument is omitted). `last` is the position of the returned
      `finalClass`. */
  method FindConsecutiveClasses(classes: seq<Occurrence>, startIndex: nat, maxIntervalArg: Option<int>)
    returns (r: Consecutive, last: nat)
    requires startIndex < |classes|
    ensures BlockEnd(classes, startIndex, last, maxIntervalArg.GetOr(DefaultMaxInterval))
    ensures r.finalClass == classes[last]
    ensures r.finalEndTime == classes[last].endTime
    ensures r.startTime == classes[startIndex].startTime
  {
    var maxInterval := maxIntervalArg.GetOr(DefaultMaxInterval);
    var startClass := classes[startIndex];
    var finalEndTime := startClass.endTime;
    var finalClass := startClass;
    last := startIndex;
    var j := startIndex + 1;
    while j < |classes|
      invariant startIndex < j <= |classes|
      invariant last == j - 1
      invariant finalClass == classes[last] && finalEndTime == classes[last].endTime
      invariant MergedThrough(classes, startIndex, last, maxInterval)
    {
      var nextClass := classes[j];
      if nextClass.courseName == startClass.courseName {
        var interval := CalculateTimeInterval(finalEndTime, nextClass.startTime);
        if interval.Some? && interval.value <= maxInterval {
          finalEndTime := nextClass.endTime;
          finalClass := nextClass;
          last := j;
        } else {
          break;
        }
      } else {
        break;
      }
      j := j + 1;
    }
    r := Consecutive(finalClass, finalEndTime, startClass.startTime);
  }
}
